=== FILE: README.md ===
# Flame Pet: a Dafny model of the streak-pet bot and its web API

Flame Pet is a Telegram game. Two friends share a fire dragon, called a
*streak*. The bot registers users on `/start`. When a user follows a
friend's invite link, the bot links the pair into one streak. Every message
either member writes "warms" the dragon. Reaching exactly 100 messages earns
a freeze. A partner who has been quiet for more than three hours is nudged.
An hourly sweep warns members who have been silent for 20 hours and announces
the dragon's death at 24 hours. A web Mini App shows the pet and talks to an
HTTP API that can:

- list a user's streaks;
- check in, which raises the level;
- rename the pet;
- spend a freeze, which revives the pet;
- show the top-ten leaderboard.

Every API call except the leaderboard and use-freeze first checks the
Telegram init data.

The model is a set of pure functions over an immutable state:

- `Domain` holds the records: users, streaks, the store (a sequence in
  database order), and the messages the bot sends.
- `Pairing` models `/start`.
- `Activity` models the catch-all message handler.
- `Binding` models `/bind`.
- `Sweep` models the hourly check.
- `Bot` models how grammY routes an update to those handlers.
- `Health` is the health evaluator.
- `Auth` is the init-data check. `Sorting` is the sort it and the
  leaderboard rely on.
- `Api` models the HTTP handlers.
- `Client` models the Mini App's derived display state and its local updates
  after each call.

Time is an integer number of milliseconds. The source's "hours as a float"
comparisons become comparisons with multiples of `HourMs = 3_600_000`. A
handler's clock is a `now` parameter. The store invariant `Domain.Valid`
requires unique ids, one streak per ordered pair, the smaller id in slot 1
and non-negative counters. Every writing operation is proved to keep it.

The model follows the code as written; in particular:

- Nothing rejects a self-invite.
- `/api/use-freeze` checks no credentials.
- `/api/streaks` computes each pet's health but sends the records without
  it.
- The 100-messages badge reads only the first member's counter.
- Nothing ever resets the "daily" message counters.

## Model

| member | source | states |
|---|---|---|
| Health.HealthAt | server/src/server.js:49-58 | health is 0, 50 or 100: 100 iff both members were active within 24 hours (inclusive), 50 iff exactly one was, 0 iff neither |
| Health.HealthNonIncreasing | server/src/server.js:52-57 | with no new activity, health never rises as time passes |
| Pairing.OrderPair | server/src/bot.js:29 | the pair key has the smaller id first and holds exactly the two ids, whichever user invited whom; equal ids are allowed |
| Pairing.UpsertUser | server/src/bot.js:14-18 | the user is created or updated; the first name is overwritten; an absent username keeps the stored one; no other user changes |
| Pairing.NewStreak | server/src/bot.js:36-40 | a created streak belongs to the ordered pair, starts at level 1 with no group, zero message counters and freezes, and both members active at creation |
| Pairing.LinkPair | server/src/bot.js:31-41 | linking fails iff a member is unregistered; an existing pair's streak is left exactly as it was; otherwise exactly one streak is appended, with level 1, no group, zero counters and a fresh id |
| Pairing.Start | server/src/bot.js:8-70 | the sender is upserted and no other user changes; the store only grows, by at most one streak; no payload gives only the invite link; an unparsable payload gives no reply; with an invite, the replies are exactly "joined" (iff the inviter is registered or is the sender) followed by the invite link, and then the ordered pair has a streak afterwards; otherwise the store is unchanged; an existing pair leaves the store unchanged; an appended streak belongs to the ordered pair, has level 1, no group, zero counters and a fresh id |
| Pairing.StartPreservesValid | server/src/bot.js:29-41 | `/start` keeps the store invariant (unique ids, one streak per pair, ordered slots) |
| Pairing.StartIdempotent | server/src/bot.js:31-35 | repeating the same `/start` leaves the state as one `/start` left it |
| Pairing.StartSymmetric | server/src/bot.js:29-35 | A invited by B and B invited by A yield the same single streak |
| Pairing.SelfInviteCreatesStreak | server/src/bot.js:23-43 | a user following their own invite link gets a streak with themselves in both slots, and the "joined" reply |
| Activity.Touch | server/src/bot.js:82-100 | the sender's slot gets the current time and one more message; a freeze is added iff that slot's count becomes exactly 100; the other slot and every other field are unchanged |
| Activity.StrangerRecordedInSlot2 | server/src/bot.js:78-87 | a sender matched only through the bound group, not a member, is recorded in slot 2: its time and counter change, slot 1 does not |
| Activity.TouchNotices | server/src/bot.js:94-109 | the achievement reply is sent iff the count becomes exactly 100, and then once and first; the partner is nudged once iff their last activity, read before the update, is more than 3 hours old; nothing else is sent |
| Activity.RecordMessage | server/src/bot.js:72-112 | every streak the sender belongs to, or that is bound to the chat, is touched; every other streak is unchanged; the notices sent are the touched streaks' notices one after another in store order, so each is sent once per streak and nothing else is sent |
| Activity.NudgeSentWhenPartnerQuiet | server/src/bot.js:104-109 | for every touched streak whose partner has been quiet more than three hours, the handler sends that partner a nudge |
| Activity.RecordPreservesValid | server/src/bot.js:81-100 | a message keeps the store invariant |
| Activity.FreezeGrantedOnce | server/src/bot.js:94-100 | after any run of messages from one member, their counter grew by the run's length and the freezes grew by one iff the counter crossed 100, else by none |
| Activity.HundredFiftyMessagesOneFreeze | server/src/bot.js:95-100 | 150 messages from a member starting at zero earn exactly one freeze |
| Binding.FirstOwned | server/src/bot.js:123-125 | the streak found is the first one in store order that the user belongs to, and none is found iff the user has none |
| Binding.Bind | server/src/bot.js:114-138 | a private chat is refused; a user with no streak is refused; otherwise only the first streak's group becomes this chat, and the confirmation is sent iff the chat is not private and the user has a streak |
| Binding.BindPreservesValid | server/src/bot.js:131-135 | binding keeps the store invariant |
| Binding.BindIdempotent | server/src/bot.js:123-135 | binding the same group twice equals binding it once |
| Binding.BoundGroupFeedsStreak | server/src/bot.js:77-79 | after a bind, a message in that group from anyone is recorded on the bound streak |
| Bot.Dispatch | server/src/bot.js:8-138 | `/start` goes to its handler; every other message, `/bind` included, goes to the catch-all message handler, which is registered first and does not pass the update on |
| Bot.BindShadowed | server/src/bot.js:72-138 | as registered, `/bind` changes no streak's group and never sends its confirmation |
| Bot.DispatchIntended | server/src/bot.js:114-138 | a `/bind` update goes to the bind handler, whose one reply is sent in the chat: in a private chat it only asks for a group, for a user with no streak it only says so, and in neither case does the state change; every other update is routed as before; no user changes |
| Bot.IntendedBindBinds | server/src/bot.js:114-137 | with `/bind` reachable, a member's `/bind` in a group binds their first streak to that group and replies only with the confirmation |
| Bot.DispatchPreservesValid | server/src/bot.js:8-138 | every routed update keeps the store invariant, under either routing |
| Sweep.Decide | server/src/bot.js:158-175 | a member is warned iff their silence is strictly between 20 and 21 hours; the stone notice is sent iff both silences are at least 24 hours and the first member's is under 25; a stone notice never comes with a warning |
| Sweep.SweepStreak | server/src/bot.js:157-175 | one streak gets only warnings and stone notices, all to its members: one warning per member inside their warning window, two stone notices (one per member) iff the stone condition holds, and nothing more |
| Sweep.SweepAll | server/src/bot.js:148-176 | a sweep sends each streak's notices one after another in store order and nothing else: at most two per streak, each to a member of some streak |
| Sweep.StoneMeansDead | server/src/bot.js:171 | the stone notice is sent only for a pet with health 0, except at the exact 24-hour instant |
| Sweep.StoneWhileHealthy | server/src/bot.js:171 | with both silences exactly 24 hours, the stone notice is sent while health is still 100 |
| Sweep.WarnAtMostOnce | server/src/bot.js:162-168 | over any run of hourly sweeps with no activity, a member is warned at most once |
| Sweep.WarnExactlyOnce | server/src/bot.js:162 | hourly sweeps spanning the window warn exactly once, when the silence is not a whole number of hours |
| Sweep.WarnMissedOnTheHour | server/src/bot.js:162 | when the silence is a whole number of hours at every sweep, the member is never warned |
| Sweep.StoneAtMostOnce | server/src/bot.js:171-175 | over any run of hourly sweeps with no activity, the stone notice is sent at most once |
| Sweep.StoneSentOnce | server/src/bot.js:171-175 | when the second member fell silent no later than the first, hourly sweeps spanning the first member's 24th hour send the stone notice exactly once |
| Sweep.StoneNeverSentWhenUser1SilentFirst | server/src/bot.js:171 | when the first member fell silent an hour or more before the second, no sweep ever sends the stone notice |
| Sweep.LaterSilence | server/src/bot.js:158-159 | the silence that decides the pet's death is the shorter of the two and is one of them |
| Sweep.StoneIntendedAgrees | server/src/bot.js:171 | the corrected stone condition agrees with the written one whenever the second member fell silent no later than the first |
| Sweep.IntendedStoneSentOnce | server/src/bot.js:170-175 | under the corrected condition, hourly sweeps spanning the pet's death send the stone notice exactly once, whoever fell silent first |
| Sweep.IntendedStoneMeansDead | server/src/bot.js:170-171 | the corrected notice is sent only for a pet with health 0, except at the exact 24-hour instant |
| Sorting.Sort | server/src/server.js:23-26 | the result is a sorted permutation of the input |
| Sorting.SortedUnique | server/src/server.js:25 | under a total order, two sorted permutations of the same elements are equal |
| Sorting.SortOrderIndependent | server/src/server.js:23-26 | sorting any rearrangement gives the same sequence |
| Auth.HashOf | server/src/server.js:20 | the hash is the value of the first `hash` parameter, and is absent iff no parameter is named `hash` |
| Auth.WithoutHash | server/src/server.js:21 | every `hash` parameter is removed and every other parameter is kept with its multiplicity |
| Auth.LexIsTotalOrder | server/src/server.js:25 | the default string comparison is total, transitive and antisymmetric |
| Auth.LinesPermutation | server/src/server.js:23-24 | rearranging the parameters rearranges their `key=value` lines the same way |
| Auth.DataCheckString | server/src/server.js:23-26 | the check string joins, with newlines, a permutation of the non-`hash` parameters' `key=value` lines sorted in string order |
| Auth.VerifyTelegramData | server/src/server.js:14-32 | absent, empty or "undefined" init data passes; otherwise the check passes iff the first `hash` parameter equals the digest of the data check string under the bot token; data with no hash fails |
| Auth.DataCheckStringOrderIndependent | server/src/server.js:19-26 | the data check string does not depend on the order of the parameters |
| Auth.HashNotChecked | server/src/server.js:19-26 | a `hash` parameter takes no part in the data check string |
| Api.OwnedStreaks | server/src/server.js:44-47 | exactly the streaks the user belongs to, each as often as it is stored, the first being the user's first streak in store order |
| Api.RateAll | server/src/server.js:49-60 | every streak is paired, in order, with its health at that moment (0, 50 or 100 by the 24-hour rule) |
| Api.GetStreaks | server/src/server.js:35-68 | 403 iff the init-data check fails; otherwise exactly the user's streaks, each as often as it is stored, the user's first streak in store order first |
| Api.HealthNeverSent | server/src/server.js:49-67 | the reply does not depend on the clock, so the computed health never reaches the client |
| Api.CheckIn | server/src/server.js:71-96 | 403 when the check fails; 500 for an unknown id; otherwise that streak's level rises by one and its check-in time is now, and no other streak changes |
| Api.RenamePet | server/src/server.js:98-117 | 403 when the check fails; 500 for an unknown id; otherwise only that streak's name changes, to the new name if one is given, and the reply echoes the stored name |
| Api.UseFreeze | server/src/server.js:145-164 | no credentials are checked; an unknown id or an empty stock gives 400 and no change; a known id with stock above zero always succeeds: one freeze is spent, both members count as active now, health is 100, and no other streak changes |
| Api.ApiPreservesValid | server/src/server.js:82-158 | check-in, rename and use-freeze keep the store invariant; the freeze stock never goes negative |
| Api.Top | server/src/server.js:122-124 | at most ten streaks, all ten when there are that many, drawn from the store, levels non-increasing |
| Api.TopIsTop | server/src/server.js:122-124 | no streak left off the board has a higher level than one on it |
| Api.PlayerName | server/src/server.js:136 | the username when it is present and non-empty; "Игрок" when the username is absent or empty |
| Api.FormatEntry | server/src/server.js:132-137 | a row carries the streak's id, name and level, and both members' display names joined by " & ", the first member first |
| Api.Leaderboard | server/src/server.js:120-143 | one row per streak on the top-ten board, in board order: at most ten rows, ten when the store has that many, levels non-increasing |
| Client.DragonStage | client/src/App.jsx:104-109 | egg below 3, hatchling from 3 below 7, young dragon from 7 below 15, flame lord from 15 |
| Client.StageMonotone | client/src/App.jsx:104-108 | a higher level never shows an earlier stage |
| Client.NextLevel | client/src/App.jsx:114 | the smallest stage boundary above the level, or 30 from level 15 on; always above a level below 30 |
| Client.Progress | client/src/App.jsx:111-116 | 0 with no streak; otherwise the level over the next target as a percentage, capped at 100, and capped iff the level reaches the target |
| Client.ProgressFullOnlyAtTop | client/src/App.jsx:114-115 | the bar is full iff the level is at least 30 |
| Client.FaceOf | client/src/App.jsx:155 | the pet is a rock iff its health is 0, otherwise the picture of its stage |
| Client.BadgesOf | client/src/App.jsx:185-188 | the message badge is unlocked iff the first member reached 100 messages; the king badge iff the pet is at the top stage |
| Client.FreezeCard | client/src/App.jsx:173-178 | the card is shown, with the stock on it, iff at least one freeze is in stock |
| Client.FreezeCardMatchesServer | client/src/App.jsx:173 | with a current copy of the streak, the freeze card is shown iff spending a freeze would succeed on the server |
| Client.Load | client/src/App.jsx:44-46 | a non-empty list replaces the pet with its first streak and no health; anything else keeps the previous pet |
| Client.LoadedPetNeverRock | client/src/App.jsx:44-46 | a pet just loaded from the server is never shown as a rock, however long its members have been silent |
| Client.LoadShowsFirstOwned | client/src/App.jsx:38-46 | on opening, the app shows the user's first streak in store order; with no streak or a failed check, the previous pet stays |
| Client.AfterUseFreeze | client/src/App.jsx:56-62 | on success, health 100 and the returned freeze count; everything else unchanged; on failure nothing changes |
| Client.AfterCheckIn | client/src/App.jsx:94-96 | on success only the level changes, to the returned one |
| Client.CheckInViewAgreesWithServer | client/src/App.jsx:94-96 | after a successful check-in from a current copy, the app's streak equals the stored one except for the check-in time, which stays stale |
| Client.AfterRename | client/src/App.jsx:80 | on success only the name changes, to the echoed one |
| Client.RenameViewAgreesWithServer | client/src/App.jsx:80 | after a successful rename from a current copy, the app's streak equals the stored one |
| Client.FreezeViewAgreesWithServer | client/src/App.jsx:59 | after a successful freeze, the app's health, freeze count and level equal what the server stored and computes |

## Left out

- Database access through Prisma is not modelled. The store is a sequence of records in database order, and each handler is one atomic step. Concurrent handlers, partial writes and database failures (the `catch` paths that log and answer 500) are not modelled.
- The database schema is not part of this model. The creation defaults are assumed: level 1 as written, zero counters and freezes, timestamps at creation time. The default pet name is a parameter. Streaks are never deleted, so a new id is larger than every id in use.
- grammY transport is not modelled: message texts, the invite keyboard and share URL, `ctx.me`, and send failures. Replies and notices are kinds (`Reply`, `Notice`) with their addressee.
- The update routing covers message updates only. Other update kinds and `bot.catch` logging are not modelled.
- node-cron scheduling is not modelled. A sweep is a function of the store and one `now`. Runs of hourly sweeps are sequences of times one hour apart with no activity in between.
- Pairing.LinkPair assumes `user1Id` and `user2Id` are foreign keys to the user table, so linking an unregistered user fails; the schema that would say so is not part of this model.
- Client.Progress: the floating-point `count / nextLevel * 100` becomes an exact fraction (a `Client.Percent` numerator over a denominator), so no rounding is modelled.
- Time is integer milliseconds. The floating-point hour division is replaced by exact comparisons with multiples of an hour. `new Date()` is one `now` per handler, although the source reads the clock separately for each write.
- HMAC-SHA256 and the URL query parser are not modelled. They are function parameters of `Auth.Verifier`, and the check is proved against any digest and any parser.
- `BigInt(...)` and `parseInt(...)` conversions are not modelled. A `/start` payload is already classified as absent, numeric or unparsable. A streak id is an integer, so `NaN` ids are not modelled.
- Express routing, CORS, JSON bodies, static files and the SPA fallback are not modelled.
- React rendering, styles, opacity, the health bar, axios, haptics, alerts, the loading flag, view tabs and the rename input box are not modelled.
- Api.PlayerName: a member with no user row cannot occur under the foreign keys assumed above; the source would then fail on the missing row and answer 500 for the whole board, while the model shows "Игрок".
- Api.GetStreaks: the records sent also embed both members' user rows, and ids become strings. The model returns the streak records only.
- Api.RenamePet: a `null` new name makes Prisma throw, which gives 500. The model treats only an absent name, which leaves the name as it is.
- Api.Top: the order among streaks of equal level is left to the database. The model's sort fixes one order and states only the non-increasing levels and the top-ten property.
- Auth.LexLe: JavaScript compares UTF-16 code units, while the model compares characters. The two orders differ only for characters outside the Basic Multilingual Plane.

## Findings

| source | as written | input that shows it | evidently intended | confidence | as-written member | corrected member |
|---|---|---|---|---|---|---|
| server/src/bot.js:72-138 | the catch-all `bot.on("message")` handler is registered before `bot.command("bind")` and does not call `next`, so `/bind` only counts as a message | a member sends `/bind` in a group: no streak gets the group, no confirmation is sent | `/bind` binds the group, as its replies describe | medium, not executed | Bot.BindShadowed | Bot.IntendedBindBinds |
| server/src/bot.js:171 | the stone notice bounds only the first member's silence (`diff1 < 25`) | first member last active at 0 h, second at 1 h: at 25 h both silences are at least 24 h but `diff1` is already 25, so no sweep ever sends the notice | the notice goes out once, in the hour after the pet dies, whoever fell silent first | medium, not executed | Sweep.StoneNeverSentWhenUser1SilentFirst | Sweep.IntendedStoneSentOnce |

=== FILE: activity.dfy ===
/** The bot's catch-all message handler: every message bumps the sender's
    slot in each streak it touches, grants a freeze at exactly 100 messages,
    and nudges a partner who has been quiet for more than three hours. */
module Activity {
  import opened Domain

  /** The message count that earns a freeze. */
  const AchievementAt: int := 100

  /** Partner silence, strictly beyond which a nudge is sent. */
  const NudgeAfterMs: int := 3 * HourMs

  /** The streaks one message touches: those the sender belongs to, and any
      streak bound to the chat the message was written in. */
  predicate Matches(s: Streak, userId: UserId, chatId: int)
  {
    Participant(s, userId) || s.groupId == Some(chatId)
  }

  /** The sender is recorded in slot 1 only when they are `user1Id`; anyone
      else (the second member, or a third person writing in a bound group)
      is recorded in slot 2. */
  predicate InSlot1(s: Streak, userId: UserId)
  {
    s.user1Id == userId
  }

  function LastOf(s: Streak, slot1: bool): Millis
  {
    if slot1 then s.lastActivity1 else s.lastActivity2
  }

  function MsgsOf(s: Streak, slot1: bool): int
  {
    if slot1 then s.dailyMsgs1 else s.dailyMsgs2
  }

  /** The member the nudge goes to: the other slot's user. */
  function PartnerOf(s: Streak, userId: UserId): UserId
  {
    if InSlot1(s, userId) then s.user2Id else s.user1Id
  }

  /** One message's effect on one streak: the sender's slot gets `now` and
      one more message, a freeze is added when that count is now exactly
      100, and nothing else changes. */
  function Touch(s: Streak, userId: UserId, now: Millis): (r: Streak)
    ensures var mine := InSlot1(s, userId);
      && LastOf(r, mine) == now
      && MsgsOf(r, mine) == MsgsOf(s, mine) + 1
      && LastOf(r, !mine) == LastOf(s, !mine)
      && MsgsOf(r, !mine) == MsgsOf(s, !mine)
      && r.freezesAvailable == s.freezesAvailable + (if MsgsOf(s, mine) + 1 == AchievementAt then 1 else 0)
    ensures r == s.(lastActivity1 := r.lastActivity1, lastActivity2 := r.lastActivity2,
                    dailyMsgs1 := r.dailyMsgs1, dailyMsgs2 := r.dailyMsgs2,
                    freezesAvailable := r.freezesAvailable)
  {
    var isUser1 := s.user1Id == userId;
    var updated := if isUser1 then s.(lastActivity1 := now, dailyMsgs1 := s.dailyMsgs1 + 1)
                   else s.(lastActivity2 := now, dailyMsgs2 := s.dailyMsgs2 + 1);
    var msgCount := if isUser1 then updated.dailyMsgs1 else updated.dailyMsgs2;
    if msgCount == 100 then updated.(freezesAvailable := updated.freezesAvailable + 1) else updated
  }

  /** What one streak's update sends: the achievement reply in the chat,
      then a nudge to the partner if their activity, as read before the
      update, is more than three hours old. Neither changes the streak. */
  function TouchNotices(s: Streak, userId: UserId, chatId: int, senderName: string, now: Millis): (out: seq<Outgoing>)
    ensures ChatReply(chatId, Achievement) in out <==> MsgsOf(s, InSlot1(s, userId)) + 1 == AchievementAt
    ensures Direct(PartnerOf(s, userId), Nudge(senderName)) in out <==> now - LastOf(s, !InSlot1(s, userId)) > NudgeAfterMs
    ensures forall o :: o in out ==> o == ChatReply(chatId, Achievement) || o == Direct(PartnerOf(s, userId), Nudge(senderName))
    ensures |out| == (if MsgsOf(s, InSlot1(s, userId)) + 1 == AchievementAt then 1 else 0)
                     + (if now - LastOf(s, !InSlot1(s, userId)) > NudgeAfterMs then 1 else 0)
    ensures |out| == 2 ==> out[0] == ChatReply(chatId, Achievement)
  {
    var isUser1 := s.user1Id == userId;
    var msgCount := if isUser1 then s.dailyMsgs1 + 1 else s.dailyMsgs2 + 1;
    var achieved := if msgCount == 100 then [ChatReply(chatId, Achievement)] else [];
    var partnerId := if isUser1 then s.user2Id else s.user1Id;
    var lastPartner := if isUser1 then s.lastActivity2 else s.lastActivity1;
    var nudge := if now - lastPartner > 3 * HourMs then [Direct(partnerId, Nudge(senderName))] else [];
    achieved + nudge
  }

  /** Someone writing in a bound group who is not a member is counted as
      the second member: their message refreshes slot 2. */
  lemma StrangerRecordedInSlot2(s: Streak, userId: UserId, now: Millis)
    requires !Participant(s, userId)
    ensures var r := Touch(s, userId, now);
            && r.lastActivity2 == now && r.dailyMsgs2 == s.dailyMsgs2 + 1
            && r.lastActivity1 == s.lastActivity1 && r.dailyMsgs1 == s.dailyMsgs1
  {
    assert !InSlot1(s, userId);
  }

  /** `o` is one of the notices the message sends for streak `s`. */
  predicate Emits(s: Streak, userId: UserId, chatId: int, senderName: string, now: Millis, o: Outgoing)
  {
    Matches(s, userId, chatId) && o in TouchNotices(s, userId, chatId, senderName, now)
  }

  /** The notices one message sends for streak `s`: none unless it matches. */
  function StreakNotices(s: Streak, userId: UserId, chatId: int, senderName: string, now: Millis): seq<Outgoing>
  {
    if Matches(s, userId, chatId) then TouchNotices(s, userId, chatId, senderName, now) else []
  }

  /** Each streak's notices, one batch per streak, in store order. */
  function NoticeBatches(store: Store, userId: UserId, chatId: int, senderName: string, now: Millis): (b: seq<seq<Outgoing>>)
    ensures |b| == |store|
    ensures forall i :: 0 <= i < |store| ==> b[i] == StreakNotices(store[i], userId, chatId, senderName, now)
  {
    seq(|store|, i requires 0 <= i < |store| => StreakNotices(store[i], userId, chatId, senderName, now))
  }

  /** The notices of the flattened batches are exactly those some matching
      streak emits, each an achievement reply or a nudge. */
  lemma BatchesEmit(store: Store, userId: UserId, chatId: int, senderName: string, now: Millis)
    ensures var out := Flatten(NoticeBatches(store, userId, chatId, senderName, now));
      && (forall o :: o in out ==> o == ChatReply(chatId, Achievement) || (o.Direct? && o.notice == Nudge(senderName)))
      && (forall i, o :: 0 <= i < |store| && Emits(store[i], userId, chatId, senderName, now, o) ==> o in out)
      && (forall o :: o in out ==> exists i :: 0 <= i < |store| && Emits(store[i], userId, chatId, senderName, now, o))
  {
    var batches := NoticeBatches(store, userId, chatId, senderName, now);
    forall o ensures o in Flatten(batches) <==> exists i :: 0 <= i < |store| && Emits(store[i], userId, chatId, senderName, now, o) {
      InFlatten(batches, o);
    }
  }

  /** The store after one message: matching streaks are touched, all
      others are left as they were. */
  function TouchAll(store: Store, userId: UserId, chatId: int, now: Millis): (r: Store)
    ensures |r| == |store|
    ensures forall i :: 0 <= i < |store| ==>
      r[i] == (if Matches(store[i], userId, chatId) then Touch(store[i], userId, now) else store[i])
  {
    if |store| == 0 then []
    else
      var rest := TouchAll(store[1..], userId, chatId, now);
      var head := if Matches(store[0], userId, chatId) then Touch(store[0], userId, now) else store[0];
      assert forall i :: 1 <= i < |store| ==> store[i] == store[1..][i - 1] && ([head] + rest)[i] == rest[i - 1];
      [head] + rest
  }

  /** The notices one message sends: exactly those of the matching
      streaks, in store order. */
  function NoticesOf(store: Store, userId: UserId, chatId: int, senderName: string, now: Millis): (out: seq<Outgoing>)
    ensures out == Flatten(NoticeBatches(store, userId, chatId, senderName, now))
    ensures forall o :: o in out ==>
      o == ChatReply(chatId, Achievement) || (o.Direct? && o.notice == Nudge(senderName))
    ensures forall i, o :: 0 <= i < |store| && Emits(store[i], userId, chatId, senderName, now, o) ==> o in out
    ensures forall o :: o in out ==> exists i :: 0 <= i < |store| && Emits(store[i], userId, chatId, senderName, now, o)
  {
    if |store| == 0 then []
    else
      var rest := NoticesOf(store[1..], userId, chatId, senderName, now);
      var out := StreakNotices(store[0], userId, chatId, senderName, now) + rest;
      assert out == Flatten(NoticeBatches(store, userId, chatId, senderName, now)) by {
        assert NoticeBatches(store, userId, chatId, senderName, now)[1..] == NoticeBatches(store[1..], userId, chatId, senderName, now);
      }
      BatchesEmit(store, userId, chatId, senderName, now);
      out
  }

  /** The handler over the whole store: matching streaks are touched, all
      others are left as they were, and exactly the matching streaks'
      notices are sent, in store order. */
  function RecordMessage(store: Store, userId: UserId, chatId: int, senderName: string, now: Millis): (r: (Store, seq<Outgoing>))
    ensures |r.0| == |store|
    ensures forall i :: 0 <= i < |store| ==>
      r.0[i] == (if Matches(store[i], userId, chatId) then Touch(store[i], userId, now) else store[i])
    ensures r.1 == Flatten(NoticeBatches(store, userId, chatId, senderName, now))
    ensures forall o :: o in r.1 ==>
      o == ChatReply(chatId, Achievement) || (o.Direct? && o.notice == Nudge(senderName))
    ensures forall i, o :: 0 <= i < |store| && Emits(store[i], userId, chatId, senderName, now, o) ==> o in r.1
    ensures forall o :: o in r.1 ==> exists i :: 0 <= i < |store| && Emits(store[i], userId, chatId, senderName, now, o)
  {
    (TouchAll(store, userId, chatId, now), NoticesOf(store, userId, chatId, senderName, now))
  }

  /** At the handler level: a message nudges the partner in every touched
      streak whose partner has been quiet for more than three hours. */
  lemma NudgeSentWhenPartnerQuiet(store: Store, userId: UserId, chatId: int, senderName: string, now: Millis, i: nat)
    requires i < |store| && Matches(store[i], userId, chatId)
    requires now - LastOf(store[i], !InSlot1(store[i], userId)) > NudgeAfterMs
    ensures Direct(PartnerOf(store[i], userId), Nudge(senderName)) in RecordMessage(store, userId, chatId, senderName, now).1
  {
    assert Emits(store[i], userId, chatId, senderName, now, Direct(PartnerOf(store[i], userId), Nudge(senderName)));
  }

  /** A message keeps the store invariant. */
  lemma RecordPreservesValid(store: Store, userId: UserId, chatId: int, senderName: string, now: Millis)
    requires Valid(store)
    ensures Valid(RecordMessage(store, userId, chatId, senderName, now).0)
  {
    var r := RecordMessage(store, userId, chatId, senderName, now).0;
    forall i | 0 <= i < |r|
      ensures r[i].id == store[i].id && r[i].user1Id == store[i].user1Id && r[i].user2Id == store[i].user2Id
      ensures CountersOk(r[i])
    {
      if Matches(store[i], userId, chatId) {
        var mine := InSlot1(store[i], userId);
        assert MsgsOf(store[i], mine) >= 0 && MsgsOf(store[i], !mine) >= 0;
      }
    }
  }

  /** `|times|` messages in a row from the same sender to one streak. */
  function Repeat(s: Streak, userId: UserId, times: seq<Millis>): Streak
    decreases |times|
  {
    if |times| == 0 then s else Repeat(Touch(s, userId, times[0]), userId, times[1..])
  }

  /** The freeze is granted exactly once per crossing of 100: after any run
      of messages from one slot, its counter grew by the run's length and
      the freezes grew by one if the run reached 100 from below, else by
      none. */
  lemma {:induction false} FreezeGrantedOnce(s: Streak, userId: UserId, times: seq<Millis>)
    ensures var mine := InSlot1(s, userId);
            var r := Repeat(s, userId, times);
            && InSlot1(r, userId) == mine
            && MsgsOf(r, mine) == MsgsOf(s, mine) + |times|
            && r.freezesAvailable == s.freezesAvailable
                 + (if MsgsOf(s, mine) < AchievementAt <= MsgsOf(s, mine) + |times| then 1 else 0)
    decreases |times|
  {
    if |times| > 0 {
      var t := Touch(s, userId, times[0]);
      assert InSlot1(t, userId) == InSlot1(s, userId);
      FreezeGrantedOnce(t, userId, times[1..]);
    }
  }

  /** 150 messages from a member starting at zero earn exactly one freeze. */
  lemma HundredFiftyMessagesOneFreeze(s: Streak, userId: UserId, times: seq<Millis>)
    requires MsgsOf(s, InSlot1(s, userId)) == 0 && |times| == 150
    ensures Repeat(s, userId, times).freezesAvailable == s.freezesAvailable + 1
  {
    FreezeGrantedOnce(s, userId, times);
  }
}

=== FILE: api.dfy ===
/** The web API the Mini App calls: list a user's streaks, check in, rename
    the pet, spend a freeze, and the leaderboard. Each handler maps the store
    and the request to a new store and a reply. */
module Api {
  import opened Domain
  import Health
  import Auth
  import Sorting

  /** One leaderboard row as sent to the client. */
  datatype Entry = Entry(id: nat, petName: string, count: int, players: string)

  /** HTTP replies: the three error statuses, then one success body per
      endpoint. */
  datatype HttpReply =
    | Forbidden
    | ServerError
    | NoFreezes
    | StreakList(streaks: seq<Streak>)
    | CheckedIn(count: int)
    | Renamed(petName: string)
    | Frozen(freezes: int)
    | Board(entries: seq<Entry>)

  /** The first of the user's streaks in store order: the pet the app
      shows. */
  predicate FirstOwnedAt(store: Store, userId: UserId, k: int)
  {
    0 <= k < |store| && Participant(store[k], userId)
    && forall j :: 0 <= j < k ==> !Participant(store[j], userId)
  }

  /** Skipping a first streak the user does not belong to moves their
      first streak one place on. */
  lemma FirstOwnedShift(store: Store, userId: UserId, k: int)
    requires |store| > 0 && !Participant(store[0], userId)
    requires FirstOwnedAt(store[1..], userId, k)
    ensures FirstOwnedAt(store, userId, k + 1) && store[k + 1] == store[1..][k]
  {
    forall j | 0 <= j < k + 1 ensures !Participant(store[j], userId) {
      if j > 0 { assert store[j] == store[1..][j - 1]; }
    }
  }

  /** Keeping the first streak iff the user belongs to it, in front of the
      user's streaks among the rest, keeps exactly the user's streaks. */
  lemma OwnedCons(store: Store, userId: UserId, rest: seq<Streak>)
    requires |store| > 0
    requires forall s :: multiset(rest)[s] == (if Participant(s, userId) then multiset(store[1..])[s] else 0)
    ensures var r := (if Participant(store[0], userId) then [store[0]] else []) + rest;
      && (forall s :: multiset(r)[s] == (if Participant(s, userId) then multiset(store)[s] else 0))
      && (forall s :: s in r <==> s in store && Participant(s, userId))
  {
    var r := (if Participant(store[0], userId) then [store[0]] else []) + rest;
    assert store == [store[0]] + store[1..];
    forall s ensures multiset(r)[s] == (if Participant(s, userId) then multiset(store)[s] else 0) {
      assert multiset(r)[s] == multiset(if Participant(store[0], userId) then [store[0]] else [])[s] + multiset(rest)[s];
    }
    forall s ensures s in r <==> s in store && Participant(s, userId) {
      assert s in r <==> multiset(r)[s] > 0;
      assert s in store <==> multiset(store)[s] > 0;
    }
  }

  /** The streaks a user belongs to, in store order. */
  function OwnedStreaks(store: Store, userId: UserId): (r: seq<Streak>)
    ensures |r| <= |store|
    ensures forall s :: s in r <==> s in store && Participant(s, userId)
    ensures forall s :: multiset(r)[s] == (if Participant(s, userId) then multiset(store)[s] else 0)
    ensures |r| > 0 ==> exists k :: FirstOwnedAt(store, userId, k) && r[0] == store[k]
  {
    if |store| == 0 then []
    else
      var rest := OwnedStreaks(store[1..], userId);
      var mine := if Participant(store[0], userId) then [store[0]] else [];
      var r := mine + rest;
      OwnedCons(store, userId, rest);
      assert |r| > 0 ==> exists k :: FirstOwnedAt(store, userId, k) && r[0] == store[k] by {
        if |r| > 0 && |mine| == 0 {
          var k :| FirstOwnedAt(store[1..], userId, k) && rest[0] == store[1..][k];
          FirstOwnedShift(store, userId, k);
        } else if |r| > 0 {
          assert FirstOwnedAt(store, userId, 0);
        }
      }
      r
  }

  /** A streak with the health the handler computes for it. */
  datatype Rated = Rated(streak: Streak, health: int)

  function RateAll(streaks: seq<Streak>, now: Millis): (r: seq<Rated>)
    ensures |r| == |streaks|
    ensures forall i :: 0 <= i < |r| ==> r[i].streak == streaks[i]
    ensures forall i :: 0 <= i < |r| ==> r[i].health == 0 || r[i].health == 50 || r[i].health == 100
    ensures forall i :: 0 <= i < |r| ==> r[i].health == Health.HealthOf(streaks[i], now)
  {
    if |streaks| == 0 then []
    else [Rated(streaks[0], Health.HealthOf(streaks[0], now))] + RateAll(streaks[1..], now)
  }

  /** `GET /api/streaks/:userId`. The handler rates every streak, but the
      body it sends is built from the unrated list, so no health reaches the
      client. */
  function GetStreaks(initData: Option<string>, v: Auth.Verifier, store: Store, userId: UserId, now: Millis): (r: HttpReply)
    ensures r == Forbidden <==> !Auth.VerifyTelegramData(initData, v)
    ensures r != Forbidden ==> r.StreakList? && forall s :: s in r.streaks <==> s in store && Participant(s, userId)
    ensures r != Forbidden ==> forall s :: multiset(r.streaks)[s] == (if Participant(s, userId) then multiset(store)[s] else 0)
    ensures r != Forbidden && |r.streaks| > 0 ==> exists k :: FirstOwnedAt(store, userId, k) && r.streaks[0] == store[k]
  {
    if !Auth.VerifyTelegramData(initData, v) then Forbidden
    else
      var streaks := OwnedStreaks(store, userId);
      var rated := RateAll(streaks, now);
      StreakList(streaks)
  }

  /** The reply does not depend on the clock: the computed health is dropped. */
  lemma HealthNeverSent(initData: Option<string>, v: Auth.Verifier, store: Store, userId: UserId, now: Millis, other: Millis)
    ensures GetStreaks(initData, v, store, userId, now) == GetStreaks(initData, v, store, userId, other)
  {
  }

  /** `POST /api/checkin`: one more level and a check-in stamp; an unknown
      id makes the update throw, which is answered with 500. */
  function CheckIn(initData: Option<string>, v: Auth.Verifier, store: Store, streakId: int, now: Millis): (r: (Store, HttpReply))
    ensures !Auth.VerifyTelegramData(initData, v) ==> r == (store, Forbidden)
    ensures Auth.VerifyTelegramData(initData, v) && IndexOf(store, streakId).None? ==> r == (store, ServerError)
    ensures |r.0| == |store|
    ensures r.1.CheckedIn? ==>
      var i := IndexOf(store, streakId).value;
      && r.0[i] == store[i].(count := r.1.count, lastCheckIn := now)
      && r.1.count == store[i].count + 1
      && forall k :: 0 <= k < |store| && k != i ==> r.0[k] == store[k]
    ensures Auth.VerifyTelegramData(initData, v) && IndexOf(store, streakId).Some? ==> r.1.CheckedIn?
  {
    if !Auth.VerifyTelegramData(initData, v) then (store, Forbidden)
    else match IndexOf(store, streakId)
      case None => (store, ServerError)
      case Some(i) =>
        var updated := store[i].(lastCheckIn := now, count := store[i].count + 1);
        (store[i := updated], CheckedIn(updated.count))
  }

  /** `POST /api/rename-pet`. An absent `newName` leaves the name as it is;
      either way the reply echoes the name now stored. */
  function RenamePet(initData: Option<string>, v: Auth.Verifier, store: Store, streakId: int, newName: Option<string>): (r: (Store, HttpReply))
    ensures !Auth.VerifyTelegramData(initData, v) ==> r == (store, Forbidden)
    ensures Auth.VerifyTelegramData(initData, v) && IndexOf(store, streakId).None? ==> r == (store, ServerError)
    ensures |r.0| == |store|
    ensures r.1.Renamed? ==>
      var i := IndexOf(store, streakId).value;
      && r.0[i] == store[i].(petName := r.1.petName)
      && r.1.petName == (if newName.Some? then newName.value else store[i].petName)
      && forall k :: 0 <= k < |store| && k != i ==> r.0[k] == store[k]
    ensures Auth.VerifyTelegramData(initData, v) && IndexOf(store, streakId).Some? ==> r.1.Renamed?
  {
    if !Auth.VerifyTelegramData(initData, v) then (store, Forbidden)
    else match IndexOf(store, streakId)
      case None => (store, ServerError)
      case Some(i) =>
        var updated := if newName.Some? then store[i].(petName := newName.value) else store[i];
        (store[i := updated], Renamed(updated.petName))
  }

  /** `POST /api/use-freeze`, which checks no credentials. With a freeze in
      stock it spends one and marks both members active now; with none, or
      with an unknown id, it answers 400 and changes nothing. */
  function UseFreeze(store: Store, streakId: int, now: Millis): (r: (Store, HttpReply))
    ensures IndexOf(store, streakId).None? ==> r == (store, NoFreezes)
    ensures IndexOf(store, streakId).Some? && store[IndexOf(store, streakId).value].freezesAvailable <= 0 ==>
      r == (store, NoFreezes)
    ensures |r.0| == |store|
    ensures r.1.Frozen? ==>
      var i := IndexOf(store, streakId).value;
      && r.1.freezes == store[i].freezesAvailable - 1 >= 0
      && r.0[i] == store[i].(freezesAvailable := r.1.freezes, lastActivity1 := now, lastActivity2 := now)
      && Health.HealthOf(r.0[i], now) == 100
      && forall k :: 0 <= k < |store| && k != i ==> r.0[k] == store[k]
    ensures r.1.Frozen? || r.1.NoFreezes?
    ensures IndexOf(store, streakId).Some? && store[IndexOf(store, streakId).value].freezesAvailable > 0 ==> r.1.Frozen?
  {
    match IndexOf(store, streakId)
    case None => (store, NoFreezes)
    case Some(i) =>
      var s := store[i];
      if s.freezesAvailable > 0 then
        var updated := s.(freezesAvailable := s.freezesAvailable - 1, lastActivity1 := now, lastActivity2 := now);
        (store[i := updated], Frozen(updated.freezesAvailable))
      else (store, NoFreezes)
  }

  /** The writes of the API keep the store invariant; in particular the
      freeze stock never goes negative. */
  lemma ApiPreservesValid(initData: Option<string>, v: Auth.Verifier, store: Store, streakId: int,
                          newName: Option<string>, now: Millis)
    requires Valid(store)
    ensures Valid(CheckIn(initData, v, store, streakId, now).0)
    ensures Valid(RenamePet(initData, v, store, streakId, newName).0)
    ensures Valid(UseFreeze(store, streakId, now).0)
  {
    var c := CheckIn(initData, v, store, streakId, now);
    if c.1.CheckedIn? {
      var i := IndexOf(store, streakId).value;
      ReplacePreservesValid(store, i, c.0[i]);
      assert c.0 == store[i := c.0[i]];
    }
    var n := RenamePet(initData, v, store, streakId, newName);
    if n.1.Renamed? {
      var i := IndexOf(store, streakId).value;
      ReplacePreservesValid(store, i, n.0[i]);
      assert n.0 == store[i := n.0[i]];
    }
    var f := UseFreeze(store, streakId, now);
    if f.1.Frozen? {
      var i := IndexOf(store, streakId).value;
      ReplacePreservesValid(store, i, f.0[i]);
      assert f.0 == store[i := f.0[i]];
    }
  }

  // The leaderboard.

  /** Higher level first. */
  predicate ByCountDesc(a: Streak, b: Streak)
  {
    a.count >= b.count
  }

  const TopSize: nat := 10

  /** What `findMany({ take: 10, orderBy: { count: 'desc' } })` returns:
      the ten highest levels. How ties are broken is up to the database; the
      model's sort picks one order. */
  function Top(store: Store): (r: seq<Streak>)
    ensures |r| == if |store| < TopSize then |store| else TopSize
    ensures multiset(r) <= multiset(store)
    ensures forall i, j :: 0 <= i < j < |r| ==> r[i].count >= r[j].count
  {
    assert Sorting.TotalPreorder(ByCountDesc);
    var ranked := Sorting.Sort(store, ByCountDesc);
    var n := if |store| < TopSize then |store| else TopSize;
    assert ranked == ranked[..n] + ranked[n..];
    assert multiset(ranked) == multiset(ranked[..n]) + multiset(ranked[n..]);
    ranked[..n]
  }

  /** No streak left off the board has a higher level than one on it. */
  lemma TopIsTop(store: Store)
    ensures forall s, t :: s in store && s !in Top(store) && t in Top(store) ==> s.count <= t.count
  {
    assert Sorting.TotalPreorder(ByCountDesc);
    var ranked := Sorting.Sort(store, ByCountDesc);
    var top := Top(store);
    var n := |top|;
    assert top == ranked[..n];
    forall s, t | s in store && s !in top && t in top
      ensures s.count <= t.count
    {
      assert s in multiset(ranked);
      Sorting.PrefixComesFirst(ranked, n, ByCountDesc, s, t);
    }
  }

  /** `username || 'Игрок'`: the handle, or the stand-in when it is absent
      or empty. */
  function PlayerName(users: Users, id: UserId): (name: string)
    ensures name == "Игрок" || (id in users && users[id].username == Some(name))
    ensures id in users && users[id].username.Some? && users[id].username.value != "" ==> name == users[id].username.value
    ensures id !in users || users[id].username.None? || users[id].username.value == "" ==> name == "Игрок"
  {
    if id in users && users[id].username.Some? && users[id].username.value != "" then users[id].username.value
    else "Игрок"
  }

  /** One board row: the streak's id, name and level, and the two members'
      display names joined by " & ", the first member first. */
  function FormatEntry(users: Users, s: Streak): (e: Entry)
    ensures e.id == s.id && e.petName == s.petName && e.count == s.count
    ensures e.players == PlayerName(users, s.user1Id) + " & " + PlayerName(users, s.user2Id)
  {
    Entry(s.id, s.petName, s.count, PlayerName(users, s.user1Id) + " & " + PlayerName(users, s.user2Id))
  }

  function FormatAll(users: Users, top: seq<Streak>): (r: seq<Entry>)
    ensures |r| == |top|
    ensures forall i :: 0 <= i < |r| ==> r[i] == FormatEntry(users, top[i])
  {
    if |top| == 0 then [] else [FormatEntry(users, top[0])] + FormatAll(users, top[1..])
  }

  /** `GET /api/leaderboard`, open to anyone: at most ten rows, levels not
      increasing down the list. */
  function Leaderboard(store: Store, users: Users): (r: HttpReply)
    ensures r.Board?
    ensures |r.entries| <= TopSize && (|store| >= TopSize ==> |r.entries| == TopSize)
    ensures forall i, j :: 0 <= i < j < |r.entries| ==> r.entries[i].count >= r.entries[j].count
    ensures forall e :: e in r.entries ==> exists s :: s in store && e == FormatEntry(users, s)
    ensures |r.entries| == |Top(store)|
    ensures forall i :: 0 <= i < |r.entries| ==> r.entries[i] == FormatEntry(users, Top(store)[i])
  {
    var top := Top(store);
    var entries := FormatAll(users, top);
    assert forall e :: e in entries ==> exists s :: s in store && e == FormatEntry(users, s) by {
      forall e | e in entries ensures exists s :: s in store && e == FormatEntry(users, s) {
        var i :| 0 <= i < |entries| && entries[i] == e;
        assert top[i] in multiset(top);
        assert top[i] in multiset(store);
      }
    }
    Board(entries)
  }
}

=== FILE: auth.dfy ===
/** `verifyTelegramData`: the check of the Mini App's init data. Missing or
    placeholder data is let through; otherwise the digest of the data check
    string (the sorted `key=value` lines without `hash`) must equal the
    supplied `hash`. */
module Auth {
  import opened Domain
  import Sorting

  datatype Param = Param(key: string, value: string)

  /** The parts of the check this model does not look inside: the URL query
      parser, and the keyed digest `hex(HMAC-SHA256(HMAC-SHA256("WebAppData",
      token), text))` applied to (token, text). */
  datatype Verifier = Verifier(botToken: string, parse: string -> seq<Param>, digest: (string, string) -> string)

  /** Init data that skips the check: absent, empty (both falsy in the
      source), or the literal text the client sends when it has none. */
  predicate Bypassed(initData: Option<string>)
  {
    initData.None? || initData.value == "" || initData.value == "undefined"
  }

  /** `get('hash')`: the value of the first `hash` parameter. */
  function HashOf(ps: seq<Param>): (r: Option<string>)
    ensures r.None? <==> forall i :: 0 <= i < |ps| ==> ps[i].key != "hash"
    ensures r.Some? ==> exists i :: 0 <= i < |ps| && ps[i] == Param("hash", r.value)
                                    && forall k :: 0 <= k < i ==> ps[k].key != "hash"
  {
    if |ps| == 0 then None
    else if ps[0].key == "hash" then Some(ps[0].value)
    else
      var r := HashOf(ps[1..]);
      assert forall i :: 1 <= i < |ps| ==> ps[i] == ps[1..][i - 1];
      if r.Some? then
        var i :| 0 <= i < |ps[1..]| && ps[1..][i] == Param("hash", r.value)
                 && forall k :: 0 <= k < i ==> ps[1..][k].key != "hash";
        assert ps[i + 1] == Param("hash", r.value);
        r
      else r
  }

  /** `delete('hash')`: every parameter but the `hash` ones, in order. */
  function WithoutHash(ps: seq<Param>): (r: seq<Param>)
    ensures forall p :: multiset(r)[p] == (if p.key == "hash" then 0 else multiset(ps)[p])
  {
    if |ps| == 0 then []
    else
      assert ps == [ps[0]] + ps[1..];
      (if ps[0].key == "hash" then [] else [ps[0]]) + WithoutHash(ps[1..])
  }

  function Line(p: Param): string
  {
    p.key + "=" + p.value
  }

  function Lines(ps: seq<Param>): (r: seq<string>)
    ensures |r| == |ps|
  {
    if |ps| == 0 then [] else [Line(ps[0])] + Lines(ps[1..])
  }

  lemma {:induction false} LinesAppend(ps: seq<Param>, qs: seq<Param>)
    ensures Lines(ps + qs) == Lines(ps) + Lines(qs)
    decreases |ps|
  {
    if |ps| == 0 {
      assert ps + qs == qs;
    } else {
      assert (ps + qs)[1..] == ps[1..] + qs;
      LinesAppend(ps[1..], qs);
    }
  }

  lemma LinesMultisetAppend(ps: seq<Param>, qs: seq<Param>)
    ensures multiset(Lines(ps + qs)) == multiset(Lines(ps)) + multiset(Lines(qs))
  {
    LinesAppend(ps, qs);
  }

  lemma SplitAt(qs: seq<Param>, k: nat)
    requires k < |qs|
    ensures qs == qs[..k] + ([qs[k]] + qs[k + 1..])
  {
    var r := qs[..k] + ([qs[k]] + qs[k + 1..]);
    assert |r| == |qs|;
    forall i | 0 <= i < |qs| ensures r[i] == qs[i] {
      if i > k {
        assert r[i] == qs[k + 1..][i - k - 1];
      }
    }
  }

  /** Taking one parameter out takes its line out. */
  lemma LinesRemove(qs: seq<Param>, k: nat)
    requires k < |qs|
    ensures multiset(Lines(qs)) == multiset(Lines(qs[..k] + qs[k + 1..])) + multiset{Line(qs[k])}
  {
    var front, back := qs[..k], qs[k + 1..];
    var x := qs[k];
    SplitAt(qs, k);
    LinesMultisetAppend(front, [x] + back);
    LinesMultisetAppend([x], back);
    LinesMultisetAppend(front, back);
    assert Lines([x]) == [Line(x)];
    var a, b, m := multiset(Lines(front)), multiset(Lines(back)), multiset{Line(x)};
    assert multiset(Lines(qs)) == a + (m + b);
    assert multiset(Lines(front + back)) == a + b;
  }

  /** Rearranging the parameters rearranges their lines the same way. */
  lemma {:induction false} LinesPermutation(ps: seq<Param>, qs: seq<Param>)
    requires multiset(ps) == multiset(qs)
    ensures multiset(Lines(ps)) == multiset(Lines(qs))
    decreases |ps|
  {
    if |ps| > 0 {
      var x := ps[0];
      assert x in multiset(ps);
      assert x in multiset(qs);
      var k :| 0 <= k < |qs| && qs[k] == x;
      var rest := qs[..k] + qs[k + 1..];
      Sorting.RemoveAtMultiset(qs, k);
      Sorting.TailMultiset(ps);
      assert multiset(rest) == multiset(ps[1..]);
      LinesPermutation(ps[1..], rest);
      LinesRemove(qs, k);
      LinesRemove(ps, 0);
      assert ps[..0] + ps[1..] == ps[1..];
    } else {
      assert qs == [];
    }
  }

  /** JavaScript's default string comparison, here character by character,
      a proper prefix first. */
  predicate LexLe(a: string, b: string)
    decreases |a|
  {
    |a| == 0 || (|b| > 0 && (a[0] < b[0] || (a[0] == b[0] && LexLe(a[1..], b[1..]))))
  }

  lemma {:induction false} LexTotal(a: string, b: string)
    ensures LexLe(a, b) || LexLe(b, a)
    decreases |a|
  {
    if |a| > 0 && |b| > 0 && a[0] == b[0] {
      LexTotal(a[1..], b[1..]);
    }
  }

  lemma {:induction false} LexTransitive(a: string, b: string, c: string)
    requires LexLe(a, b) && LexLe(b, c)
    ensures LexLe(a, c)
    decreases |a|
  {
    if |a| > 0 && a[0] == b[0] && b[0] == c[0] {
      LexTransitive(a[1..], b[1..], c[1..]);
    }
  }

  lemma {:induction false} LexAntisymmetric(a: string, b: string)
    requires LexLe(a, b) && LexLe(b, a)
    ensures a == b
    decreases |a|
  {
    if |a| > 0 {
      LexAntisymmetric(a[1..], b[1..]);
      assert a == [a[0]] + a[1..] && b == [b[0]] + b[1..];
    }
  }

  /** String comparison is a total order. */
  lemma LexIsTotalOrder()
    ensures Sorting.TotalPreorder(LexLe) && Sorting.Antisymmetric(LexLe)
  {
    forall a, b ensures LexLe(a, b) || LexLe(b, a) {
      LexTotal(a, b);
    }
    forall a, b, c | LexLe(a, b) && LexLe(b, c) ensures LexLe(a, c) {
      LexTransitive(a, b, c);
    }
    forall a, b | LexLe(a, b) && LexLe(b, a) ensures a == b {
      LexAntisymmetric(a, b);
    }
  }

  /** `join('\n')`. */
  function JoinLines(lines: seq<string>): string
  {
    if |lines| == 0 then ""
    else if |lines| == 1 then lines[0]
    else lines[0] + "\n" + JoinLines(lines[1..])
  }

  /** The text the digest is computed over: the `key=value` lines of the
      parameters other than `hash`, in string order, joined by newlines. */
  function DataCheckString(ps: seq<Param>): (text: string)
    ensures exists lines :: multiset(lines) == multiset(Lines(WithoutHash(ps)))
                            && Sorting.Sorted(lines, LexLe) && text == JoinLines(lines)
  {
    LexIsTotalOrder();
    var lines := Sorting.Sort(Lines(WithoutHash(ps)), LexLe);
    assert multiset(lines) == multiset(Lines(WithoutHash(ps))) && Sorting.Sorted(lines, LexLe);
    JoinLines(lines)
  }

  /** The check: bypassed data passes; otherwise the data must carry a
      `hash`, and it must equal the digest of the data check string. */
  function VerifyTelegramData(initData: Option<string>, v: Verifier): (ok: bool)
    ensures Bypassed(initData) ==> ok
    ensures !Bypassed(initData) && HashOf(v.parse(initData.value)).None? ==> !ok
    ensures !Bypassed(initData) ==>
      (ok <==> exists i :: 0 <= i < |v.parse(initData.value)|
                 && v.parse(initData.value)[i].key == "hash"
                 && v.parse(initData.value)[i].value == v.digest(v.botToken, DataCheckString(v.parse(initData.value)))
                 && forall k :: 0 <= k < i ==> v.parse(initData.value)[k].key != "hash")
  {
    if initData.None? || initData.value == "" || initData.value == "undefined" then true
    else
      var params := v.parse(initData.value);
      var hash := HashOf(params);
      var calculated := v.digest(v.botToken, DataCheckString(params));
      hash == Some(calculated)
  }

  /** The data check string does not depend on the order of the parameters. */
  lemma DataCheckStringOrderIndependent(ps: seq<Param>, qs: seq<Param>)
    requires multiset(ps) == multiset(qs)
    ensures DataCheckString(ps) == DataCheckString(qs)
  {
    var a := WithoutHash(ps);
    var b := WithoutHash(qs);
    assert multiset(a) == multiset(b) by {
      forall p ensures multiset(a)[p] == multiset(b)[p] {
      }
    }
    LinesPermutation(a, b);
    LexIsTotalOrder();
    Sorting.SortOrderIndependent(Lines(a), Lines(b), LexLe);
  }

  /** `hash` parameters take no part in the data check string. */
  lemma HashNotChecked(ps: seq<Param>, h: string)
    ensures DataCheckString(ps + [Param("hash", h)]) == DataCheckString(ps)
  {
    var qs := ps + [Param("hash", h)];
    assert WithoutHash(qs) == WithoutHash(ps) by {
      WithoutHashAppend(ps, h);
    }
  }

  lemma {:induction false} WithoutHashAppend(ps: seq<Param>, h: string)
    ensures WithoutHash(ps + [Param("hash", h)]) == WithoutHash(ps)
    decreases |ps|
  {
    var qs := ps + [Param("hash", h)];
    if |ps| == 0 {
      assert qs[1..] == [];
    } else {
      assert qs[0] == ps[0] && qs[1..] == ps[1..] + [Param("hash", h)];
      WithoutHashAppend(ps[1..], h);
    }
  }
}

=== FILE: binding.dfy ===
/** The `/bind` command: attach a group chat to the caller's streak, so that
    messages in that group feed the pet. */
module Binding {
  import opened Domain
  import Activity

  datatype ChatType = Private | Group | Supergroup | Channel

  /** First position, from `from` on, of a streak the user belongs to. */
  function OwnedFrom(store: Store, userId: UserId, from: nat): (r: Option<nat>)
    requires from <= |store|
    ensures r.Some? ==> from <= r.value < |store| && Participant(store[r.value], userId)
    ensures r.Some? ==> forall k :: from <= k < r.value ==> !Participant(store[k], userId)
    ensures r.None? ==> forall k :: from <= k < |store| ==> !Participant(store[k], userId)
    decreases |store| - from
  {
    if from == |store| then None
    else if Participant(store[from], userId) then Some(from)
    else OwnedFrom(store, userId, from + 1)
  }

  /** The streak `findFirst` returns: the first one the user belongs to. */
  function FirstOwned(store: Store, userId: UserId): (r: Option<nat>)
    ensures r.Some? ==> r.value < |store| && Participant(store[r.value], userId)
    ensures r.Some? ==> forall k :: 0 <= k < r.value ==> !Participant(store[k], userId)
    ensures r.None? <==> forall k :: 0 <= k < |store| ==> !Participant(store[k], userId)
  {
    OwnedFrom(store, userId, 0)
  }

  /** The handler: refused in a private chat, refused when the user has no
      streak, otherwise the first streak of the user gets this chat as its
      group (replacing any earlier one) and nothing else changes. */
  function Bind(store: Store, chatType: ChatType, userId: UserId, chatId: int): (r: (Store, Reply))
    ensures chatType == Private ==> r == (store, BindNeedsGroup)
    ensures chatType != Private && (forall k :: 0 <= k < |store| ==> !Participant(store[k], userId)) ==>
      r == (store, BindNeedsStreak)
    ensures r.1 == BindDone <==> chatType != Private && exists k :: 0 <= k < |store| && Participant(store[k], userId)
    ensures |r.0| == |store|
    ensures r.1 == BindDone ==>
      var i := FirstOwned(store, userId).value;
      && r.0[i] == store[i].(groupId := Some(chatId))
      && forall k :: 0 <= k < |store| && k != i ==> r.0[k] == store[k]
  {
    if chatType == Private then (store, BindNeedsGroup)
    else match FirstOwned(store, userId)
      case None => (store, BindNeedsStreak)
      case Some(i) => (store[i := store[i].(groupId := Some(chatId))], BindDone)
  }

  /** Binding keeps the store invariant. */
  lemma BindPreservesValid(store: Store, chatType: ChatType, userId: UserId, chatId: int)
    requires Valid(store)
    ensures Valid(Bind(store, chatType, userId, chatId).0)
  {
    if Bind(store, chatType, userId, chatId).1 == BindDone {
      var i := FirstOwned(store, userId).value;
      ReplacePreservesValid(store, i, store[i].(groupId := Some(chatId)));
    }
  }

  /** Binding the same group twice is the same as binding it once. */
  lemma BindIdempotent(store: Store, chatType: ChatType, userId: UserId, chatId: int)
    ensures var once := Bind(store, chatType, userId, chatId).0;
            Bind(once, chatType, userId, chatId).0 == once
  {
    var once := Bind(store, chatType, userId, chatId).0;
    if Bind(store, chatType, userId, chatId).1 == BindDone {
      var i := FirstOwned(store, userId).value;
      assert forall k :: 0 <= k < |store| ==> Participant(once[k], userId) == Participant(store[k], userId);
      assert FirstOwned(once, userId) == Some(i);
    }
  }

  /** After a successful bind, every message written in that group, by
      anyone, is recorded on the bound streak. */
  lemma BoundGroupFeedsStreak(store: Store, chatType: ChatType, userId: UserId, chatId: int,
                              sender: UserId, senderName: string, now: Millis)
    requires Bind(store, chatType, userId, chatId).1 == BindDone
    ensures var bound := Bind(store, chatType, userId, chatId).0;
            var i := FirstOwned(store, userId).value;
            Activity.RecordMessage(bound, sender, chatId, senderName, now).0[i] == Activity.Touch(bound[i], sender, now)
  {
    var bound := Bind(store, chatType, userId, chatId).0;
    var i := FirstOwned(store, userId).value;
    assert Activity.Matches(bound[i], sender, chatId);
  }
}

=== FILE: bot.dfy ===
/** How the bot routes an incoming update to its handlers. The handlers are
    registered as `/start`, then the catch-all message handler, then `/bind`;
    the first handler whose filter matches runs, and the chain stops there
    unless it calls `next`, which none of them does. */
module Bot {
  import opened Domain
  import Pairing
  import Activity
  import Binding

  /** What the update's text is, as far as routing cares. */
  datatype Command = StartCmd(invite: Pairing.Invite) | BindCmd | PlainMessage

  /** A message update: sender, sender's handle and first name, and the chat. */
  datatype Update = Update(from: UserId, username: Option<string>, firstName: string,
                           chatId: int, chatType: Binding.ChatType, command: Command)

  /** The catch-all message handler applied to the state. */
  function OnMessage(st: BotState, u: Update, now: Millis): (r: (BotState, seq<Outgoing>))
    ensures r.0.users == st.users
    ensures r.0.store == Activity.RecordMessage(st.store, u.from, u.chatId, u.firstName, now).0
  {
    var (store', out) := Activity.RecordMessage(st.store, u.from, u.chatId, u.firstName, now);
    (BotState(st.users, store'), out)
  }

  /** Routing as registered: `/start` is caught first; every other message,
      `/bind` included, is caught by the message handler, so the `/bind`
      handler is never reached. */
  function Dispatch(st: BotState, u: Update, now: Millis, petName: string): (r: (BotState, seq<Outgoing>))
    ensures u.command.StartCmd? ==>
      r == Pairing.Start(st, u.from, u.chatId, u.username, u.firstName, u.command.invite, now, petName)
    ensures !u.command.StartCmd? ==> r == OnMessage(st, u, now)
  {
    match u.command
    case StartCmd(invite) => Pairing.Start(st, u.from, u.chatId, u.username, u.firstName, invite, now, petName)
    case BindCmd => OnMessage(st, u, now)
    case PlainMessage => OnMessage(st, u, now)
  }

  /** Routing with `/bind` registered ahead of the message handler, as the
      command's replies show it is meant to work. */
  function DispatchIntended(st: BotState, u: Update, now: Millis, petName: string): (r: (BotState, seq<Outgoing>))
    ensures !u.command.BindCmd? ==> r == Dispatch(st, u, now, petName)
    ensures u.command.BindCmd? ==> r.0.users == st.users
    ensures u.command.BindCmd? ==>
      var b := Binding.Bind(st.store, u.chatType, u.from, u.chatId);
      r == (BotState(st.users, b.0), [ChatReply(u.chatId, b.1)])
    ensures u.command.BindCmd? && u.chatType == Binding.Private ==>
      r == (st, [ChatReply(u.chatId, BindNeedsGroup)])
    ensures u.command.BindCmd? && u.chatType != Binding.Private
            && (forall k :: 0 <= k < |st.store| ==> !Participant(st.store[k], u.from)) ==>
      r == (st, [ChatReply(u.chatId, BindNeedsStreak)])
  {
    match u.command
    case BindCmd =>
      var (store', reply) := Binding.Bind(st.store, u.chatType, u.from, u.chatId);
      (BotState(st.users, store'), [ChatReply(u.chatId, reply)])
    case _ => Dispatch(st, u, now, petName)
  }

  /** As registered, `/bind` binds nothing: no streak's group changes and
      the confirmation is never sent; the command only counts as a message. */
  lemma BindShadowed(st: BotState, u: Update, now: Millis, petName: string)
    requires u.command == BindCmd
    ensures var r := Dispatch(st, u, now, petName);
            && |r.0.store| == |st.store|
            && (forall i :: 0 <= i < |st.store| ==> r.0.store[i].groupId == st.store[i].groupId)
            && ChatReply(u.chatId, BindDone) !in r.1
  {
    var r := Dispatch(st, u, now, petName);
    forall i | 0 <= i < |st.store| ensures r.0.store[i].groupId == st.store[i].groupId {
      if Activity.Matches(st.store[i], u.from, u.chatId) {
        assert r.0.store[i] == Activity.Touch(st.store[i], u.from, now);
      }
    }
  }

  /** With `/bind` routed to its handler, a member's `/bind` in a group
      attaches that group to their first streak and confirms it. */
  lemma IntendedBindBinds(st: BotState, u: Update, now: Millis, petName: string, k: nat)
    requires u.command == BindCmd && u.chatType != Binding.Private
    requires k < |st.store| && Participant(st.store[k], u.from)
    ensures var r := DispatchIntended(st, u, now, petName);
            var i := Binding.FirstOwned(st.store, u.from).value;
            && r.0.store[i].groupId == Some(u.chatId)
            && r.1 == [ChatReply(u.chatId, BindDone)]
  {
    var (store', reply) := Binding.Bind(st.store, u.chatType, u.from, u.chatId);
    assert reply == BindDone;
  }

  /** Every routed update keeps the store invariant, under either routing. */
  lemma DispatchPreservesValid(st: BotState, u: Update, now: Millis, petName: string)
    requires Valid(st.store)
    ensures Valid(Dispatch(st, u, now, petName).0.store)
    ensures Valid(DispatchIntended(st, u, now, petName).0.store)
  {
    match u.command
    case StartCmd(invite) =>
      Pairing.StartPreservesValid(st, u.from, u.chatId, u.username, u.firstName, invite, now, petName);
    case BindCmd =>
      Activity.RecordPreservesValid(st.store, u.from, u.chatId, u.firstName, now);
      Binding.BindPreservesValid(st.store, u.chatType, u.from, u.chatId);
    case PlainMessage =>
      Activity.RecordPreservesValid(st.store, u.from, u.chatId, u.firstName, now);
  }
}

=== FILE: client.dfy ===
/** The Mini App's derived display state: the dragon's stage and progress
    from the level, the badges, and the local updates the app makes after
    each API call. */
module Client {
  import opened Domain
  import Health
  import Api
  import Auth
  import Activity

  datatype Stage = Egg | Hatchling | YoungDragon | FlameLord

  function StageRank(st: Stage): nat
  {
    match st
    case Egg => 0
    case Hatchling => 1
    case YoungDragon => 2
    case FlameLord => 3
  }

  /** `getDragonStage`: egg below 3, hatchling below 7, young dragon below 15,
      and the flame lord from 15 on. */
  function DragonStage(count: int): (st: Stage)
    ensures st == Egg <==> count < 3
    ensures st == Hatchling <==> 3 <= count < 7
    ensures st == YoungDragon <==> 7 <= count < 15
    ensures st == FlameLord <==> 15 <= count
  {
    if count < 3 then Egg
    else if count < 7 then Hatchling
    else if count < 15 then YoungDragon
    else FlameLord
  }

  /** A higher level never shows an earlier stage. */
  lemma StageMonotone(count: int, higher: int)
    requires count <= higher
    ensures StageRank(DragonStage(count)) <= StageRank(DragonStage(higher))
  {
  }

  /** The stage boundaries, the progress bar's targets below the top stage. */
  const Thresholds: seq<int> := [3, 7, 15]

  /** The level the progress bar aims at past the last stage boundary. */
  const TopLevel: int := 30

  /** `nextLevel`: the first stage boundary above the level, or 30 once the
      last one is reached. */
  function NextLevel(count: int): (n: int)
    ensures n in Thresholds || n == TopLevel
    ensures count < 15 ==> n in Thresholds && n > count
    ensures forall i :: 0 <= i < |Thresholds| && Thresholds[i] > count ==> n <= Thresholds[i]
    ensures count >= 15 ==> n == TopLevel
    ensures count < TopLevel ==> n > count
  {
    if count < 3 then 3 else if count < 7 then 7 else if count < 15 then 15 else 30
  }

  /** A percentage as the exact fraction `num / den`. */
  datatype Percent = Percent(num: int, den: int)

  /** `getProgress`: `min(count / nextLevel * 100, 100)` per cent, or 0
      with no streak loaded. */
  function Progress(count: Option<int>): (p: Percent)
    ensures p.den > 0
    ensures count.None? ==> p.num == 0
    ensures count.Some? ==> p.den == NextLevel(count.value)
    ensures count.Some? && count.value >= 0 ==> 0 <= p.num <= 100 * p.den
    ensures count.Some? ==> (p.num == 100 * p.den <==> count.value >= NextLevel(count.value))
    ensures count.Some? && p.num < 100 * p.den ==> p.num == 100 * count.value
  {
    match count
    case None => Percent(0, 1)
    case Some(c) =>
      var next := NextLevel(c);
      Percent(if 100 * c < 100 * next then 100 * c else 100 * next, next)
  }

  /** The bar is full only from level 30 on; below it, it is never full. */
  lemma ProgressFullOnlyAtTop(c: int)
    ensures Progress(Some(c)).num == 100 * Progress(Some(c)).den <==> c >= TopLevel
  {
    assert c < TopLevel ==> NextLevel(c) > c;
  }

  /** The object the app keeps for the pet: the streak as the server sent
      it, plus a `health` the server never sends (absent until set
      locally). */
  datatype View = View(streak: Streak, health: Option<int>)

  /** What the pet shows: a rock when health is 0, the stage otherwise. */
  datatype Face = Rock | StageFace(stage: Stage)

  function FaceOf(v: View): (f: Face)
    ensures f == Rock <==> v.health == Some(0)
    ensures f != Rock ==> f == StageFace(DragonStage(v.streak.count))
  {
    if v.health == Some(0) then Rock else StageFace(DragonStage(v.streak.count))
  }

  /** The two badges under the pet. */
  datatype Badges = Badges(messages: bool, king: bool)

  /** The 100-messages badge looks only at the first member's counter; the
      king badge is exactly the top stage. */
  function BadgesOf(v: View): (b: Badges)
    ensures b.messages <==> v.streak.dailyMsgs1 >= Activity.AchievementAt
    ensures b.king <==> DragonStage(v.streak.count) == FlameLord
  {
    Badges(v.streak.dailyMsgs1 >= 100, v.streak.count >= 15)
  }

  /** The freeze card: shown, with the stock on it, only while at least one
      freeze is in stock. */
  function FreezeCard(v: View): (card: Option<int>)
    ensures card.Some? <==> v.streak.freezesAvailable > 0
    ensures card.Some? ==> card.value == v.streak.freezesAvailable && card.value >= 1
  {
    if v.streak.freezesAvailable > 0 then Some(v.streak.freezesAvailable) else None
  }

  /** When the app's copy of the streak is current, the freeze card is shown
      exactly when spending a freeze would succeed on the server. */
  lemma FreezeCardMatchesServer(v: View, store: Store, now: Millis)
    requires IndexOf(store, v.streak.id).Some?
    requires store[IndexOf(store, v.streak.id).value] == v.streak
    ensures FreezeCard(v).Some? <==> Api.UseFreeze(store, v.streak.id, now).1.Frozen?
  {
  }

  /** `fetchStreak`: the first streak of the reply replaces the pet; an
      empty list or an error reply keeps what was there. */
  function Load(prev: Option<View>, reply: Api.HttpReply): (r: Option<View>)
    ensures reply.StreakList? && |reply.streaks| > 0 ==> r == Some(View(reply.streaks[0], None))
    ensures !(reply.StreakList? && |reply.streaks| > 0) ==> r == prev
  {
    if reply.StreakList? && |reply.streaks| > 0 then Some(View(reply.streaks[0], None)) else prev
  }

  /** Because the list the server sends carries no health, a freshly loaded
      pet is never shown as a rock, however dead it is. */
  lemma LoadedPetNeverRock(initData: Option<string>, verifier: Auth.Verifier, store: Store, userId: UserId,
                            now: Millis, prev: Option<View>)
    requires Api.GetStreaks(initData, verifier, store, userId, now).StreakList?
    requires |Api.GetStreaks(initData, verifier, store, userId, now).streaks| > 0
    ensures var v := Load(prev, Api.GetStreaks(initData, verifier, store, userId, now));
            v.Some? && FaceOf(v.value) != Rock
  {
  }

  /** On opening the app, the pet shown is the user's first streak in store
      order, or the previous pet when the user has none or the check fails. */
  lemma LoadShowsFirstOwned(initData: Option<string>, verifier: Auth.Verifier, store: Store, userId: UserId,
                            now: Millis, prev: Option<View>)
    ensures var v := Load(prev, Api.GetStreaks(initData, verifier, store, userId, now));
      if Auth.VerifyTelegramData(initData, verifier) && exists j :: 0 <= j < |store| && Participant(store[j], userId)
      then exists k :: Api.FirstOwnedAt(store, userId, k) && v == Some(View(store[k], None))
      else v == prev
  {
    var r := Api.GetStreaks(initData, verifier, store, userId, now);
    if Auth.VerifyTelegramData(initData, verifier) && exists j :: 0 <= j < |store| && Participant(store[j], userId) {
      var j :| 0 <= j < |store| && Participant(store[j], userId);
      assert store[j] in r.streaks;
    }
  }

  /** `handleUseFreeze`: on success, health 100 and the returned freeze
      count; every other field stays; on an error reply nothing changes. */
  function AfterUseFreeze(v: View, reply: Api.HttpReply): (r: View)
    ensures reply.Frozen? ==> r.health == Some(100) && r.streak.freezesAvailable == reply.freezes
    ensures reply.Frozen? ==> r.streak == v.streak.(freezesAvailable := r.streak.freezesAvailable)
    ensures !reply.Frozen? ==> r == v
  {
    if reply.Frozen? then View(v.streak.(freezesAvailable := reply.freezes), Some(100)) else v
  }

  /** `handleCheckIn`: the level the server returned; nothing else. */
  function AfterCheckIn(v: View, reply: Api.HttpReply): (r: View)
    ensures reply.CheckedIn? ==> r == v.(streak := v.streak.(count := reply.count))
    ensures !reply.CheckedIn? ==> r == v
  {
    if reply.CheckedIn? then v.(streak := v.streak.(count := reply.count)) else v
  }

  /** `handleRename`: the name the server echoed; nothing else. */
  function AfterRename(v: View, reply: Api.HttpReply): (r: View)
    ensures reply.Renamed? ==> r == v.(streak := v.streak.(petName := reply.petName))
    ensures !reply.Renamed? ==> r == v
  {
    if reply.Renamed? then v.(streak := v.streak.(petName := reply.petName)) else v
  }

  /** After a successful check-in the app's copy agrees with what the
      server stored, except for the check-in time, which the app keeps
      stale. */
  lemma CheckInViewAgreesWithServer(v: View, initData: Option<string>, verifier: Auth.Verifier,
                                    store: Store, streakId: int, now: Millis)
    requires IndexOf(store, streakId).Some?
    requires v.streak == store[IndexOf(store, streakId).value]
    requires Api.CheckIn(initData, verifier, store, streakId, now).1.CheckedIn?
    ensures var (store', reply) := Api.CheckIn(initData, verifier, store, streakId, now);
            var i := IndexOf(store, streakId).value;
            var v' := AfterCheckIn(v, reply);
            && v'.streak.count == store'[i].count
            && v'.streak == store'[i].(lastCheckIn := store[i].lastCheckIn)
            && v'.health == v.health
  {
  }

  /** After a successful rename the app's copy equals the stored streak. */
  lemma RenameViewAgreesWithServer(v: View, initData: Option<string>, verifier: Auth.Verifier,
                                   store: Store, streakId: int, newName: Option<string>)
    requires IndexOf(store, streakId).Some?
    requires v.streak == store[IndexOf(store, streakId).value]
    requires Api.RenamePet(initData, verifier, store, streakId, newName).1.Renamed?
    ensures var (store', reply) := Api.RenamePet(initData, verifier, store, streakId, newName);
            AfterRename(v, reply).streak == store'[IndexOf(store, streakId).value]
  {
  }

  /** After a successful freeze the app's health and freeze count agree with
      what the server stored and would compute at that moment. */
  lemma FreezeViewAgreesWithServer(v: View, store: Store, streakId: int, now: Millis)
    requires IndexOf(store, streakId).Some?
    requires v.streak == store[IndexOf(store, streakId).value]
    requires Api.UseFreeze(store, streakId, now).1.Frozen?
    ensures var (store', reply) := Api.UseFreeze(store, streakId, now);
            var i := IndexOf(store, streakId).value;
            var v' := AfterUseFreeze(v, reply);
            && v'.health == Some(Health.HealthOf(store'[i], now))
            && v'.streak.freezesAvailable == store'[i].freezesAvailable
            && v'.streak.count == store'[i].count
  {
  }
}

=== FILE: domain.dfy ===
/** The records the streak-pet bot and web API share: users, streaks (the
    pets), the store that holds them, and the messages the bot sends out.
    Time is an integer count of milliseconds. */
module Domain {

  datatype Option<+T> = None | Some(value: T)

  type UserId = int
  type Millis = int

  /** Milliseconds in one hour: the source divides timestamp differences by
      `1000 * 60 * 60` before comparing them with hour thresholds. */
  const HourMs: int := 3_600_000

  /** A registered bot user. `username` is absent for Telegram users without
      a public handle. */
  datatype User = User(id: UserId, username: Option<string>, firstName: string)

  type Users = map<UserId, User>

  /** The shared pet of two users. Slot 1 belongs to `user1Id`, slot 2 to
      `user2Id`; `groupId` is the chat bound by /bind, if any. */
  datatype Streak = Streak(
    id: nat,
    user1Id: UserId,
    user2Id: UserId,
    groupId: Option<int>,
    count: int,
    petName: string,
    lastActivity1: Millis,
    lastActivity2: Millis,
    lastCheckIn: Millis,
    dailyMsgs1: int,
    dailyMsgs2: int,
    freezesAvailable: int)

  /** All streaks, in the order the database returns them. */
  type Store = seq<Streak>

  /** The bot's whole persistent state. */
  datatype BotState = BotState(users: Users, store: Store)

  /** Replies the bot posts into the chat an update came from. */
  datatype Reply =
    | Joined
    | InviteLink(inviterId: UserId)
    | Achievement
    | BindNeedsGroup
    | BindNeedsStreak
    | BindDone

  /** Notices the bot sends privately to one user. */
  datatype Notice =
    | Nudge(senderName: string)
    | Freezing
    | Stone

  datatype Outgoing =
    | ChatReply(chatId: int, reply: Reply)
    | Direct(to: UserId, notice: Notice)

  /** The parts one after another, in order: a handler that walks the store
      sends each streak's messages as one batch. */
  function Flatten<T>(parts: seq<seq<T>>): seq<T>
  {
    if |parts| == 0 then [] else parts[0] + Flatten(parts[1..])
  }

  /** A value is in the flattened sequence iff it is in one of the parts. */
  lemma {:induction false} InFlatten<T>(parts: seq<seq<T>>, x: T)
    ensures x in Flatten(parts) <==> exists i :: 0 <= i < |parts| && x in parts[i]
    decreases |parts|
  {
    if |parts| > 0 {
      InFlatten(parts[1..], x);
      if x in Flatten(parts[1..]) {
        var i :| 0 <= i < |parts[1..]| && x in parts[1..][i];
        assert x in parts[i + 1];
      }
      if exists i :: 1 <= i < |parts| && x in parts[i] {
        var i :| 1 <= i < |parts| && x in parts[i];
        assert x in parts[1..][i - 1];
      }
    }
  }

  predicate Participant(s: Streak, userId: UserId)
  {
    s.user1Id == userId || s.user2Id == userId
  }

  /** Counters never go below zero. */
  predicate CountersOk(s: Streak)
  {
    s.count >= 0 && s.dailyMsgs1 >= 0 && s.dailyMsgs2 >= 0 && s.freezesAvailable >= 0
  }

  /** The store invariant the database schema and the handlers maintain:
      unique ids, at most one streak per ordered pair (the composite unique
      key), the smaller id in slot 1, and non-negative counters. */
  ghost predicate Valid(store: Store)
  {
    && (forall i, j :: 0 <= i < j < |store| ==> store[i].id != store[j].id)
    && (forall i, j :: 0 <= i < j < |store| ==>
          store[i].user1Id != store[j].user1Id || store[i].user2Id != store[j].user2Id)
    && (forall i :: 0 <= i < |store| ==> store[i].user1Id <= store[i].user2Id && CountersOk(store[i]))
  }

  /** Position of the streak with the given id, searching from `from`. */
  function IndexFrom(store: Store, id: int, from: nat): (r: Option<nat>)
    requires from <= |store|
    ensures r.Some? ==> from <= r.value < |store| && store[r.value].id == id
    ensures r.Some? ==> forall k :: from <= k < r.value ==> store[k].id != id
    ensures r.None? ==> forall k :: from <= k < |store| ==> store[k].id != id
    decreases |store| - from
  {
    if from == |store| then None
    else if store[from].id == id then Some(from)
    else IndexFrom(store, id, from + 1)
  }

  /** Position of the streak with the given id (`where: { id }`). */
  function IndexOf(store: Store, id: int): (r: Option<nat>)
    ensures r.Some? ==> r.value < |store| && store[r.value].id == id
    ensures r.None? <==> forall k :: 0 <= k < |store| ==> store[k].id != id
  {
    IndexFrom(store, id, 0)
  }

  /** Replacing one streak by another with the same id, the same members and
      non-negative counters keeps the store valid. */
  lemma ReplacePreservesValid(store: Store, i: nat, s: Streak)
    requires Valid(store)
    requires i < |store|
    requires s.id == store[i].id && s.user1Id == store[i].user1Id && s.user2Id == store[i].user2Id
    requires CountersOk(s)
    ensures Valid(store[i := s])
  {
    var store' := store[i := s];
    forall a, b | 0 <= a < b < |store'|
      ensures store'[a].id != store'[b].id
      ensures store'[a].user1Id != store'[b].user1Id || store'[a].user2Id != store'[b].user2Id
    {
      assert store'[a].id == store[a].id && store'[b].id == store[b].id;
      assert store'[a].user1Id == store[a].user1Id && store'[b].user1Id == store[b].user1Id;
      assert store'[a].user2Id == store[a].user2Id && store'[b].user2Id == store[b].user2Id;
    }
  }
}

=== FILE: health.dfy ===
/** The health evaluator of `/api/streaks`: a pet is healthy while both
    members were active within the last 24 hours. */
module Health {
  import opened Domain

  /** 24 hours: the threshold a member's silence may reach and still count. */
  const DayMs: int := 24 * HourMs

  /** A member whose last activity is at most 24 hours before `now`. */
  predicate Warm(last: Millis, now: Millis)
  {
    now - last <= DayMs
  }

  /** Health from the two members' last activities: 100 when both are warm,
      50 when exactly one is, 0 when neither is. */
  function HealthAt(last1: Millis, last2: Millis, now: Millis): (h: int)
    ensures h == 0 || h == 50 || h == 100
    ensures h == 100 <==> Warm(last1, now) && Warm(last2, now)
    ensures h == 50 <==> Warm(last1, now) != Warm(last2, now)
    ensures h == 0 <==> !Warm(last1, now) && !Warm(last2, now)
  {
    var diff1 := now - last1;
    var diff2 := now - last2;
    if diff1 <= DayMs && diff2 <= DayMs then 100
    else if diff1 <= DayMs || diff2 <= DayMs then 50
    else 0
  }

  function HealthOf(s: Streak, now: Millis): (h: int)
    ensures h == 0 || h == 50 || h == 100
  {
    HealthAt(s.lastActivity1, s.lastActivity2, now)
  }

  /** With the timestamps fixed, health never rises as time passes. */
  lemma HealthNonIncreasing(last1: Millis, last2: Millis, now: Millis, later: Millis)
    requires now <= later
    ensures HealthAt(last1, last2, later) <= HealthAt(last1, last2, now)
  {
    assert Warm(last1, later) ==> Warm(last1, now);
    assert Warm(last2, later) ==> Warm(last2, now);
  }
}

=== FILE: pairing.dfy ===
/** The `/start` command: register the user and, when the start payload
    names an inviter, create the pair's streak if it does not exist yet. */
module Pairing {
  import opened Domain

  /** The `/start` payload: absent (or empty), a numeric inviter id, or text
      that `BigInt` cannot parse (the handler then throws after registering
      the user, and nothing more happens). */
  datatype Invite = NoInvite | InviteFrom(inviterId: UserId) | Unparsable

  /** The two ids with the smaller first, so both invite directions give the
      same key. Equal ids are not rejected. */
  function OrderPair(userId: UserId, inviterId: UserId): (p: (UserId, UserId))
    ensures p.0 <= p.1
    ensures multiset{p.0, p.1} == multiset{userId, inviterId}
  {
    if userId < inviterId then (userId, inviterId) else (inviterId, userId)
  }

  /** Create-or-update of the acting user. An absent username leaves the
      stored one as it was; the first name is always overwritten. */
  function UpsertUser(users: Users, id: UserId, username: Option<string>, firstName: string): (r: Users)
    ensures r.Keys == users.Keys + {id}
    ensures r[id].id == id && r[id].firstName == firstName
    ensures username.Some? ==> r[id].username == username
    ensures username.None? && id in users ==> r[id].username == users[id].username
    ensures username.None? && id !in users ==> r[id].username.None?
    ensures forall k :: k in users && k != id ==> r[k] == users[k]
  {
    var kept := if id in users then users[id].username else None;
    users[id := User(id, if username.Some? then username else kept, firstName)]
  }

  /** First position, from `from` on, of the streak keyed by `(u1, u2)`. */
  function PairFrom(store: Store, u1: UserId, u2: UserId, from: nat): (r: Option<nat>)
    requires from <= |store|
    ensures r.Some? ==> from <= r.value < |store|
    ensures r.Some? ==> store[r.value].user1Id == u1 && store[r.value].user2Id == u2
    ensures r.None? ==> forall k :: from <= k < |store| ==> store[k].user1Id != u1 || store[k].user2Id != u2
    decreases |store| - from
  {
    if from == |store| then None
    else if store[from].user1Id == u1 && store[from].user2Id == u2 then Some(from)
    else PairFrom(store, u1, u2, from + 1)
  }

  function PairIndex(store: Store, u1: UserId, u2: UserId): (r: Option<nat>)
    ensures r.Some? ==> r.value < |store| && store[r.value].user1Id == u1 && store[r.value].user2Id == u2
    ensures r.None? <==> forall k :: 0 <= k < |store| ==> store[k].user1Id != u1 || store[k].user2Id != u2
  {
    PairFrom(store, u1, u2, 0)
  }

  /** The largest id in the store (0 when it is empty). */
  function MaxId(store: Store): (m: nat)
    ensures forall i :: 0 <= i < |store| ==> store[i].id <= m
  {
    if |store| == 0 then 0
    else
      var rest := MaxId(store[1..]);
      assert forall i :: 1 <= i < |store| ==> store[i] == store[1..][i - 1];
      if store[0].id > rest then store[0].id else rest
  }

  /** The id the autoincrement column hands out next: larger than every id
      in use, since streaks are never deleted. */
  function NextId(store: Store): (id: nat)
    ensures forall i :: 0 <= i < |store| ==> store[i].id < id
  {
    MaxId(store) + 1
  }

  /** A freshly linked pair: level 1, no group, counters at zero, both
      members active now. The timestamp and zero defaults and the default pet
      name come from the database schema, which is not part of this model. */
  function NewStreak(id: nat, u1: UserId, u2: UserId, now: Millis, petName: string): (s: Streak)
    ensures s.id == id && s.user1Id == u1 && s.user2Id == u2 && s.petName == petName
    ensures s.count == 1 && s.groupId.None? && CountersOk(s)
    ensures s.dailyMsgs1 == 0 && s.dailyMsgs2 == 0 && s.freezesAvailable == 0
    ensures s.lastActivity1 == now && s.lastActivity2 == now && s.lastCheckIn == now
  {
    Streak(id, u1, u2, None, 1, petName, now, now, now, 0, 0, 0)
  }

  datatype Linked = Linked(store: Store) | LinkFailed

  /** Upsert keyed by the ordered pair: an existing streak is left exactly as
      it is, otherwise a new one is appended. It fails (the error is caught
      and logged) when either id is not a registered user, since both
      columns reference the user table. */
  function LinkPair(users: Users, store: Store, u1: UserId, u2: UserId, now: Millis, petName: string): (r: Linked)
    ensures r.LinkFailed? <==> u1 !in users || u2 !in users
    ensures r.Linked? ==> store <= r.store && |r.store| <= |store| + 1
    ensures r.Linked? ==> PairIndex(r.store, u1, u2).Some?
    ensures r.Linked? && PairIndex(store, u1, u2).Some? ==> r.store == store
    ensures r.Linked? && |r.store| > |store| ==>
      var s := r.store[|store|];
      && s.user1Id == u1 && s.user2Id == u2 && s.count == 1 && s.groupId.None?
      && s.dailyMsgs1 == 0 && s.dailyMsgs2 == 0 && s.freezesAvailable == 0
      && forall i :: 0 <= i < |store| ==> store[i].id != s.id
  {
    if u1 !in users || u2 !in users then LinkFailed
    else if PairIndex(store, u1, u2).Some? then Linked(store)
    else
      var r := store + [NewStreak(NextId(store), u1, u2, now, petName)];
      assert r[|store|].user1Id == u1 && r[|store|].user2Id == u2;
      Linked(r)
  }

  /** The whole `/start` handler: the new state and the replies in the chat
      the command came from. */
  function Start(st: BotState, from: UserId, chatId: int, username: Option<string>, firstName: string,
                 invite: Invite, now: Millis, petName: string): (r: (BotState, seq<Outgoing>))
    ensures from in r.0.users && r.0.users.Keys == st.users.Keys + {from}
    ensures r.0.users == UpsertUser(st.users, from, username, firstName)
    ensures st.store <= r.0.store && |r.0.store| <= |st.store| + 1
    ensures invite.NoInvite? ==> r.0.store == st.store && r.1 == [ChatReply(chatId, InviteLink(from))]
    ensures invite.Unparsable? ==> r.0.store == st.store && r.1 == []
    ensures invite.InviteFrom? ==>
      r.1 == (if invite.inviterId in st.users || invite.inviterId == from then [ChatReply(chatId, Joined)] else [])
             + [ChatReply(chatId, InviteLink(from))]
    ensures invite.InviteFrom? && (invite.inviterId in st.users || invite.inviterId == from) ==>
      var p := OrderPair(from, invite.inviterId);
      PairIndex(r.0.store, p.0, p.1).Some?
    ensures invite.InviteFrom? && !(invite.inviterId in st.users || invite.inviterId == from) ==> r.0.store == st.store
    ensures invite.InviteFrom? ==>
      var p := OrderPair(from, invite.inviterId);
      PairIndex(st.store, p.0, p.1).Some? ==> r.0.store == st.store
    ensures |r.0.store| > |st.store| ==>
      var s := r.0.store[|st.store|];
      && invite.InviteFrom? && (s.user1Id, s.user2Id) == OrderPair(from, invite.inviterId)
      && s.count == 1 && s.groupId.None? && s.dailyMsgs1 == 0 && s.dailyMsgs2 == 0 && s.freezesAvailable == 0
      && forall i :: 0 <= i < |st.store| ==> st.store[i].id != s.id
  {
    var users := UpsertUser(st.users, from, username, firstName);
    match invite
    case NoInvite => (BotState(users, st.store), [ChatReply(chatId, InviteLink(from))])
    case Unparsable => (BotState(users, st.store), [])
    case InviteFrom(inviter) =>
      var (u1, u2) := OrderPair(from, inviter);
      match LinkPair(users, st.store, u1, u2, now, petName)
      case Linked(store') => (BotState(users, store'), [ChatReply(chatId, Joined), ChatReply(chatId, InviteLink(from))])
      case LinkFailed => (BotState(users, st.store), [ChatReply(chatId, InviteLink(from))])
  }

  /** `/start` keeps the store invariant: the new streak has a fresh id, a
      pair that had no streak, and the smaller id in slot 1. */
  lemma StartPreservesValid(st: BotState, from: UserId, chatId: int, username: Option<string>, firstName: string,
                            invite: Invite, now: Millis, petName: string)
    requires Valid(st.store)
    ensures Valid(Start(st, from, chatId, username, firstName, invite, now, petName).0.store)
  {
    var r := Start(st, from, chatId, username, firstName, invite, now, petName);
    if invite.InviteFrom? && |r.0.store| > |st.store| {
      var users := UpsertUser(st.users, from, username, firstName);
      var (u1, u2) := OrderPair(from, invite.inviterId);
      var l := LinkPair(users, st.store, u1, u2, now, petName);
      assert l.Linked? && l.store == r.0.store;
      assert PairIndex(st.store, u1, u2).None?;
      var n := |st.store|;
      var s := r.0.store[n];
      assert r.0.store == st.store + [s];
      forall i, j | 0 <= i < j < |r.0.store|
        ensures r.0.store[i].id != r.0.store[j].id
        ensures r.0.store[i].user1Id != r.0.store[j].user1Id || r.0.store[i].user2Id != r.0.store[j].user2Id
      {
        if j == n {
          assert r.0.store[i] == st.store[i];
        } else {
          assert r.0.store[i] == st.store[i] && r.0.store[j] == st.store[j];
        }
      }
      forall i | 0 <= i < |r.0.store|
        ensures r.0.store[i].user1Id <= r.0.store[i].user2Id && CountersOk(r.0.store[i])
      {
        if i < n {
          assert r.0.store[i] == st.store[i];
        }
      }
    }
  }

  /** Processing the same `/start` twice leaves the same state as once: a
      re-invite finds the streak the first one created and changes nothing. */
  lemma StartIdempotent(st: BotState, from: UserId, chatId: int, username: Option<string>, firstName: string,
                        invite: Invite, now: Millis, later: Millis, petName: string)
    ensures var once := Start(st, from, chatId, username, firstName, invite, now, petName).0;
            Start(once, from, chatId, username, firstName, invite, later, petName).0 == once
  {
    var users := UpsertUser(st.users, from, username, firstName);
    var once := Start(st, from, chatId, username, firstName, invite, now, petName).0;
    assert once.users == users;
    assert UpsertUser(users, from, username, firstName) == users;
    if invite.InviteFrom? {
      var (u1, u2) := OrderPair(from, invite.inviterId);
      var l := LinkPair(users, st.store, u1, u2, now, petName);
      if l.Linked? {
        assert once.store == l.store;
        assert PairIndex(once.store, u1, u2).Some?;
      }
    }
  }

  /** A invited by B and then B invited by A resolve to one streak: the
      second `/start` leaves the store as the first one left it. */
  lemma StartSymmetric(st: BotState, a: UserId, b: UserId, chatA: int, chatB: int,
                       nameA: Option<string>, firstA: string, nameB: Option<string>, firstB: string,
                       now: Millis, later: Millis, petName: string)
    requires b in st.users
    ensures var first := Start(st, a, chatA, nameA, firstA, InviteFrom(b), now, petName).0;
            Start(first, b, chatB, nameB, firstB, InviteFrom(a), later, petName).0.store == first.store
  {
    var first := Start(st, a, chatA, nameA, firstA, InviteFrom(b), now, petName).0;
    var users := UpsertUser(st.users, a, nameA, firstA);
    var (u1, u2) := OrderPair(a, b);
    assert OrderPair(b, a) == (u1, u2);
    var l := LinkPair(users, st.store, u1, u2, now, petName);
    assert l.Linked? && first.store == l.store;
    assert PairIndex(first.store, u1, u2).Some?;
    var users2 := UpsertUser(first.users, b, nameB, firstB);
    assert u1 in users2 && u2 in users2;
  }

  /** Nothing rejects a self-invite: a user following their own link gets a
      streak with themselves in both slots. */
  lemma SelfInviteCreatesStreak(st: BotState, a: UserId, chatId: int, username: Option<string>, firstName: string,
                                now: Millis, petName: string)
    ensures var r := Start(st, a, chatId, username, firstName, InviteFrom(a), now, petName);
            && ChatReply(chatId, Joined) in r.1
            && exists i :: 0 <= i < |r.0.store| && r.0.store[i].user1Id == a && r.0.store[i].user2Id == a
  {
    var r := Start(st, a, chatId, username, firstName, InviteFrom(a), now, petName);
    var i := PairIndex(r.0.store, a, a);
    assert i.Some?;
  }
}

=== FILE: sorting.dfy ===
/** Sorting by a comparison, as used for the leaderboard's `orderBy` and for
    the `.sort()` of the credential check string. */
module Sorting {

  /** `le` compares any two values and is transitive. */
  ghost predicate TotalPreorder<T(!new)>(le: (T, T) -> bool)
  {
    && (forall a, b :: le(a, b) || le(b, a))
    && (forall a, b, c :: le(a, b) && le(b, c) ==> le(a, c))
  }

  ghost predicate Antisymmetric<T(!new)>(le: (T, T) -> bool)
  {
    forall a, b :: le(a, b) && le(b, a) ==> a == b
  }

  ghost predicate Sorted<T>(s: seq<T>, le: (T, T) -> bool)
  {
    forall i, j :: 0 <= i < j < |s| ==> le(s[i], s[j])
  }

  /** Insert `x` before the first element it does not come after. */
  function Insert<T>(x: T, s: seq<T>, le: (T, T) -> bool): (r: seq<T>)
    ensures multiset(r) == multiset(s) + multiset{x}
    ensures forall y :: y in r ==> y == x || y in s
  {
    if |s| == 0 then [x]
    else if le(x, s[0]) then [x] + s
    else
      assert s == [s[0]] + s[1..];
      [s[0]] + Insert(x, s[1..], le)
  }

  /** Inserting into a sorted sequence keeps it sorted. */
  lemma {:induction false} InsertSorted<T(!new)>(x: T, s: seq<T>, le: (T, T) -> bool)
    requires TotalPreorder(le)
    requires Sorted(s, le)
    ensures Sorted(Insert(x, s, le), le)
    decreases |s|
  {
    if |s| > 0 && !le(x, s[0]) {
      var rest := Insert(x, s[1..], le);
      assert Sorted(s[1..], le);
      InsertSorted(x, s[1..], le);
      var r := [s[0]] + rest;
      assert le(s[0], x);
      forall y | y in rest ensures le(s[0], y) {
        if y != x {
          var k :| 0 <= k < |s[1..]| && s[1..][k] == y;
          assert s[k + 1] == y;
        }
      }
      forall i, j | 0 <= i < j < |r| ensures le(r[i], r[j]) {
        if i == 0 {
          assert r[j] == rest[j - 1];
        } else {
          assert r[i] == rest[i - 1] && r[j] == rest[j - 1];
        }
      }
      assert Insert(x, s, le) == r;
    }
  }

  /** Insertion sort: a sorted permutation of the input. */
  function Sort<T(!new)>(s: seq<T>, le: (T, T) -> bool): (r: seq<T>)
    requires TotalPreorder(le)
    ensures multiset(r) == multiset(s)
    ensures |r| == |s|
    ensures Sorted(r, le)
  {
    if |s| == 0 then []
    else
      assert s == [s[0]] + s[1..];
      var sorted := Sort(s[1..], le);
      InsertSorted(s[0], sorted, le);
      var r := Insert(s[0], sorted, le);
      assert |r| == |multiset(r)| == |multiset(s)| == |s|;
      r
  }

  /** The first element of a sorted sequence comes before all of its
      elements. */
  lemma HeadIsLeast<T(!new)>(a: seq<T>, x: T, le: (T, T) -> bool)
    requires TotalPreorder(le) && Sorted(a, le)
    requires x in multiset(a)
    ensures le(a[0], x)
  {
    var i :| 0 <= i < |a| && a[i] == x;
    if i == 0 {
      assert le(x, x) || le(x, x);
    }
  }

  lemma TailMultiset<T>(a: seq<T>)
    requires |a| > 0
    ensures multiset(a[1..]) == multiset(a) - multiset{a[0]}
  {
    assert a == [a[0]] + a[1..];
  }

  lemma SortedTail<T>(a: seq<T>, le: (T, T) -> bool)
    requires |a| > 0 && Sorted(a, le)
    ensures Sorted(a[1..], le)
  {
    forall i, j | 0 <= i < j < |a[1..]| ensures le(a[1..][i], a[1..][j]) {
      assert a[1..][i] == a[i + 1] && a[1..][j] == a[j + 1];
    }
  }

  lemma RemoveAtMultiset<T>(a: seq<T>, k: nat)
    requires k < |a|
    ensures multiset(a[..k] + a[k + 1..]) == multiset(a) - multiset{a[k]}
  {
    assert a == a[..k] + [a[k]] + a[k + 1..];
    assert multiset(a) == multiset(a[..k]) + multiset{a[k]} + multiset(a[k + 1..]);
  }

  /** In a sorted sequence, everything in a prefix comes before everything
      left out of it. */
  lemma PrefixComesFirst<T>(s: seq<T>, n: nat, le: (T, T) -> bool, out: T, kept: T)
    requires Sorted(s, le) && n <= |s|
    requires out in s && out !in s[..n] && kept in s[..n]
    ensures le(kept, out)
  {
    var j :| 0 <= j < |s| && s[j] == out;
    assert n <= j;
    var i :| 0 <= i < n && s[..n][i] == kept;
    assert s[i] == kept && i < j;
  }

  /** Under an antisymmetric order there is only one sorted arrangement of a
      multiset, so the sorted result does not depend on the input order. */
  lemma {:induction false} SortedUnique<T(!new)>(a: seq<T>, b: seq<T>, le: (T, T) -> bool)
    requires TotalPreorder(le) && Antisymmetric(le)
    requires Sorted(a, le) && Sorted(b, le)
    requires multiset(a) == multiset(b)
    ensures a == b
    decreases |a|
  {
    assert |a| == |b| by {
      assert |a| == |multiset(a)| == |multiset(b)| == |b|;
    }
    if |a| > 0 {
      assert a[0] == b[0] by {
        assert a[0] in multiset(b) && b[0] in multiset(a);
        HeadIsLeast(b, a[0], le);
        HeadIsLeast(a, b[0], le);
      }
      assert multiset(a[1..]) == multiset(b[1..]) by {
        TailMultiset(a);
        TailMultiset(b);
      }
      SortedTail(a, le);
      SortedTail(b, le);
      SortedUnique(a[1..], b[1..], le);
      assert a == [a[0]] + a[1..] && b == [b[0]] + b[1..];
    }
  }

  /** Sorting the same elements in any order gives the same sequence. */
  lemma SortOrderIndependent<T(!new)>(s: seq<T>, t: seq<T>, le: (T, T) -> bool)
    requires TotalPreorder(le) && Antisymmetric(le)
    requires multiset(s) == multiset(t)
    ensures Sort(s, le) == Sort(t, le)
  {
    SortedUnique(Sort(s, le), Sort(t, le), le);
  }
}

=== FILE: sweep.dfy ===
/** The hourly decay sweep: for every streak, warn a member who has been
    silent for between 20 and 21 hours, and tell both members their pet has
    turned to stone once both have been silent for 24 hours. The sweep only
    reads the store; it never writes a streak. */
module Sweep {
  import opened Domain
  import Health

  const WarnFromMs: int := 20 * HourMs
  const WarnUntilMs: int := 21 * HourMs
  const StoneFromMs: int := 24 * HourMs
  const StoneUntilMs: int := 25 * HourMs

  /** What one sweep decides for one streak, from the two silences. */
  datatype Decision = Decision(warn1: bool, warn2: bool, stone: bool)

  /** A silence strictly between 20 and 21 hours. */
  predicate InWarnWindow(diff: int)
  {
    WarnFromMs < diff < WarnUntilMs
  }

  /** The decision of one sweep. The stone notice bounds only the first
      member's silence from above. A stone notice never comes with a
      warning, since both silences are then at least 24 hours. */
  function Decide(diff1: int, diff2: int): (d: Decision)
    ensures d.warn1 <==> InWarnWindow(diff1)
    ensures d.warn2 <==> InWarnWindow(diff2)
    ensures d.stone <==> StoneFromMs <= diff1 < StoneUntilMs && diff2 >= StoneFromMs
    ensures d.stone ==> !d.warn1 && !d.warn2
  {
    Decision(diff1 > 20 * HourMs && diff1 < 21 * HourMs,
             diff2 > 20 * HourMs && diff2 < 21 * HourMs,
             diff1 >= 24 * HourMs && diff2 >= 24 * HourMs && diff1 < 25 * HourMs)
  }

  function DecideAt(s: Streak, now: Millis): Decision
  {
    Decide(now - s.lastActivity1, now - s.lastActivity2)
  }

  /** The notices one sweep sends for one streak: at most two, since a
      stone notice never comes with a warning. */
  function SweepStreak(s: Streak, now: Millis): (out: seq<Outgoing>)
    ensures |out| <= 2
    ensures var d := DecideAt(s, now);
      |out| == (if d.warn1 then 1 else 0) + (if d.warn2 then 1 else 0) + (if d.stone then 2 else 0)
    ensures forall o :: o in out ==> o.Direct? && (o.notice == Freezing || o.notice == Stone)
    ensures Direct(s.user1Id, Stone) in out <==> DecideAt(s, now).stone
    ensures Direct(s.user2Id, Stone) in out <==> DecideAt(s, now).stone
    ensures forall o :: o in out ==> o.Direct? && Participant(s, o.to)
    ensures DecideAt(s, now).warn1 ==> Direct(s.user1Id, Freezing) in out
    ensures DecideAt(s, now).warn2 ==> Direct(s.user2Id, Freezing) in out
    ensures Direct(s.user1Id, Freezing) in out && s.user1Id != s.user2Id ==> DecideAt(s, now).warn1
    ensures Direct(s.user2Id, Freezing) in out && s.user1Id != s.user2Id ==> DecideAt(s, now).warn2
  {
    var d := DecideAt(s, now);
    (if d.warn1 then [Direct(s.user1Id, Freezing)] else [])
    + (if d.warn2 then [Direct(s.user2Id, Freezing)] else [])
    + (if d.stone then [Direct(s.user1Id, Stone), Direct(s.user2Id, Stone)] else [])
  }

  /** Each streak's sweep notices, one batch per streak, in store order. */
  function SweepBatches(store: Store, now: Millis): (b: seq<seq<Outgoing>>)
    ensures |b| == |store|
    ensures forall i :: 0 <= i < |store| ==> b[i] == SweepStreak(store[i], now)
  {
    seq(|store|, i requires 0 <= i < |store| => SweepStreak(store[i], now))
  }

  /** The notices of the flattened batches are exactly the per-streak ones,
      each to a member of its streak. */
  lemma BatchesSent(store: Store, now: Millis)
    ensures var out := Flatten(SweepBatches(store, now));
      && (forall o :: o in out ==> o.Direct? && exists i :: 0 <= i < |store| && Participant(store[i], o.to))
      && (forall i, o :: 0 <= i < |store| && o in SweepStreak(store[i], now) ==> o in out)
      && (forall o :: o in out ==> exists i :: 0 <= i < |store| && o in SweepStreak(store[i], now))
  {
    var batches := SweepBatches(store, now);
    forall o ensures o in Flatten(batches) <==> exists i :: 0 <= i < |store| && o in SweepStreak(store[i], now) {
      InFlatten(batches, o);
    }
  }

  /** One sweep over the whole store, streak by streak: each streak's
      notices, in store order, and nothing else. */
  function SweepAll(store: Store, now: Millis): (out: seq<Outgoing>)
    ensures out == Flatten(SweepBatches(store, now))
    ensures |out| <= 2 * |store|
    ensures forall o :: o in out ==> o.Direct? && exists i :: 0 <= i < |store| && Participant(store[i], o.to)
    ensures forall i, o :: 0 <= i < |store| && o in SweepStreak(store[i], now) ==> o in out
    ensures forall o :: o in out ==> exists i :: 0 <= i < |store| && o in SweepStreak(store[i], now)
  {
    if |store| == 0 then []
    else
      var out := SweepStreak(store[0], now) + SweepAll(store[1..], now);
      assert out == Flatten(SweepBatches(store, now)) by {
        assert SweepBatches(store, now)[1..] == SweepBatches(store[1..], now);
      }
      BatchesSent(store, now);
      out
  }

  /** A stone notice means the pet is dead, except at the exact instant a
      silence equals 24 hours, which the health evaluator still counts as
      alive. */
  lemma StoneMeansDead(s: Streak, now: Millis)
    requires DecideAt(s, now).stone
    ensures Health.HealthOf(s, now) == 0
            || now - s.lastActivity1 == StoneFromMs || now - s.lastActivity2 == StoneFromMs
  {
    assert now - s.lastActivity1 >= StoneFromMs && now - s.lastActivity2 >= StoneFromMs;
  }

  /** The boundary case: both silent exactly 24 hours, the stone notice goes
      out while health is still 100. */
  lemma StoneWhileHealthy(s: Streak, now: Millis)
    requires now - s.lastActivity1 == StoneFromMs && now - s.lastActivity2 == StoneFromMs
    ensures DecideAt(s, now).stone && Health.HealthOf(s, now) == 100
  {
    assert Health.Warm(s.lastActivity1, now) && Health.Warm(s.lastActivity2, now);
  }

  // Sweeps exactly one hour apart, with no activity in between.

  /** How many of `n` hourly sweeps, the first at `t0`, warn the member
      last active at `last`. */
  function WarnCount(last: Millis, t0: Millis, n: nat): nat
    decreases n
  {
    if n == 0 then 0
    else (if InWarnWindow(t0 - last) then 1 else 0) + WarnCount(last, t0 + HourMs, n - 1)
  }

  /** How many of `n` hourly sweeps, the first at `t0`, send the stone
      notice for `s`. */
  function StoneCount(s: Streak, t0: Millis, n: nat): nat
    decreases n
  {
    if n == 0 then 0
    else (if DecideAt(s, t0).stone then 1 else 0) + StoneCount(s, t0 + HourMs, n - 1)
  }

  lemma {:induction false} NoWarnAfterWindow(last: Millis, t0: Millis, n: nat)
    requires t0 - last >= WarnUntilMs
    ensures WarnCount(last, t0, n) == 0
    decreases n
  {
    if n > 0 {
      NoWarnAfterWindow(last, t0 + HourMs, n - 1);
    }
  }

  /** A member is warned at most once over any run of hourly sweeps. */
  lemma {:induction false} WarnAtMostOnce(last: Millis, t0: Millis, n: nat)
    ensures WarnCount(last, t0, n) <= 1
    decreases n
  {
    if n > 0 {
      if InWarnWindow(t0 - last) {
        NoWarnAfterWindow(last, t0 + HourMs, n - 1);
      } else {
        WarnAtMostOnce(last, t0 + HourMs, n - 1);
      }
    }
  }

  /** A run of hourly sweeps that starts before the window and ends after it
      warns exactly once, unless the silence is a whole number of hours at
      every sweep. */
  lemma {:induction false} WarnExactlyOnce(last: Millis, t0: Millis, n: nat)
    requires t0 - last <= WarnFromMs
    requires t0 + (n - 1) * HourMs - last >= WarnUntilMs
    requires (t0 - last) % HourMs != 0
    ensures WarnCount(last, t0, n) == 1
    decreases n
  {
    assert n >= 2;
    assert t0 - last != WarnFromMs;
    assert !InWarnWindow(t0 - last);
    var next := t0 + HourMs;
    if next - last > WarnFromMs {
      assert InWarnWindow(next - last);
      NoWarnAfterWindow(last, next + HourMs, n - 2);
      assert WarnCount(last, next, n - 1) == 1;
    } else {
      assert (next - last) % HourMs == (t0 - last) % HourMs;
      WarnExactlyOnce(last, next, n - 1);
    }
  }

  /** A member whose silence is a whole number of hours at every sweep is
      never warned: 20 and 21 hours both fall outside the open window. */
  lemma {:induction false} WarnMissedOnTheHour(last: Millis, t0: Millis, n: nat)
    requires (t0 - last) % HourMs == 0
    ensures WarnCount(last, t0, n) == 0
    decreases n
  {
    if n > 0 {
      var q := (t0 - last) / HourMs;
      assert t0 - last == q * HourMs;
      assert !InWarnWindow(t0 - last) by {
        if q <= 20 {
          assert t0 - last <= 20 * HourMs;
        } else {
          assert t0 - last >= 21 * HourMs;
        }
      }
      assert (t0 + HourMs - last) % HourMs == 0;
      WarnMissedOnTheHour(last, t0 + HourMs, n - 1);
    }
  }

  lemma {:induction false} NoStoneAfterWindow(s: Streak, t0: Millis, n: nat)
    requires t0 - s.lastActivity1 >= StoneUntilMs
    ensures StoneCount(s, t0, n) == 0
    decreases n
  {
    if n > 0 {
      NoStoneAfterWindow(s, t0 + HourMs, n - 1);
    }
  }

  /** The stone notice goes out at most once over any run of hourly sweeps. */
  lemma {:induction false} StoneAtMostOnce(s: Streak, t0: Millis, n: nat)
    ensures StoneCount(s, t0, n) <= 1
    decreases n
  {
    if n > 0 {
      if DecideAt(s, t0).stone {
        NoStoneAfterWindow(s, t0 + HourMs, n - 1);
      } else {
        StoneAtMostOnce(s, t0 + HourMs, n - 1);
      }
    }
  }

  /** When the second member fell silent no later than the first, a run of
      hourly sweeps across the first member's 24th hour sends the stone
      notice exactly once. */
  lemma {:induction false} StoneSentOnce(s: Streak, t0: Millis, n: nat)
    requires s.lastActivity2 <= s.lastActivity1
    requires t0 - s.lastActivity1 < StoneFromMs
    requires t0 + (n - 1) * HourMs - s.lastActivity1 >= StoneFromMs
    ensures StoneCount(s, t0, n) == 1
    decreases n
  {
    assert n >= 2;
    assert !DecideAt(s, t0).stone;
    var next := t0 + HourMs;
    if next - s.lastActivity1 >= StoneFromMs {
      assert DecideAt(s, next).stone;
      NoStoneAfterWindow(s, next + HourMs, n - 2);
      assert StoneCount(s, next, n - 1) == 1;
    } else {
      StoneSentOnce(s, next, n - 1);
    }
  }

  /** The asymmetric bound in action: when the first member fell silent an
      hour or more before the second, no sweep ever sends the stone notice,
      although the pet dies once the second member passes 24 hours. */
  lemma {:induction false} StoneNeverSentWhenUser1SilentFirst(s: Streak, t0: Millis, n: nat)
    requires s.lastActivity2 - s.lastActivity1 >= HourMs
    ensures StoneCount(s, t0, n) == 0
    decreases n
  {
    if n > 0 {
      assert !DecideAt(s, t0).stone;
      StoneNeverSentWhenUser1SilentFirst(s, t0 + HourMs, n - 1);
    }
  }

  // The stone notice as evidently intended: sent in the hour after the pet
  // dies, that is, after the later of the two members has been silent for
  // 24 hours, whichever member that is.

  /** The silence of the member who spoke last: the shorter of the two. The
      pet dies when this one reaches 24 hours. */
  function LaterSilence(s: Streak, now: Millis): (d: int)
    ensures d == now - s.lastActivity1 || d == now - s.lastActivity2
    ensures d <= now - s.lastActivity1 && d <= now - s.lastActivity2
  {
    if s.lastActivity1 >= s.lastActivity2 then now - s.lastActivity1 else now - s.lastActivity2
  }

  /** The corrected stone condition: both silences at least 24 hours and
      the shorter one under 25. It agrees with the source whenever the
      first member fell silent last. */
  predicate StoneIntended(s: Streak, now: Millis)
  {
    StoneFromMs <= LaterSilence(s, now) < StoneUntilMs
  }

  lemma StoneIntendedAgrees(s: Streak, now: Millis)
    requires s.lastActivity2 <= s.lastActivity1
    ensures StoneIntended(s, now) <==> DecideAt(s, now).stone
  {
  }

  function StoneCountIntended(s: Streak, t0: Millis, n: nat): nat
    decreases n
  {
    if n == 0 then 0
    else (if StoneIntended(s, t0) then 1 else 0) + StoneCountIntended(s, t0 + HourMs, n - 1)
  }

  lemma {:induction false} NoIntendedStoneAfterWindow(s: Streak, t0: Millis, n: nat)
    requires LaterSilence(s, t0) >= StoneUntilMs
    ensures StoneCountIntended(s, t0, n) == 0
    decreases n
  {
    if n > 0 {
      NoIntendedStoneAfterWindow(s, t0 + HourMs, n - 1);
    }
  }

  /** Whichever member fell silent first, a run of hourly sweeps across the
      moment the pet dies sends the corrected stone notice exactly once. */
  lemma {:induction false} IntendedStoneSentOnce(s: Streak, t0: Millis, n: nat)
    requires LaterSilence(s, t0) < StoneFromMs
    requires LaterSilence(s, t0 + (n - 1) * HourMs) >= StoneFromMs
    ensures StoneCountIntended(s, t0, n) == 1
    decreases n
  {
    assert n >= 2;
    assert !StoneIntended(s, t0);
    var next := t0 + HourMs;
    assert LaterSilence(s, next) == LaterSilence(s, t0) + HourMs;
    if LaterSilence(s, next) >= StoneFromMs {
      assert StoneIntended(s, next);
      NoIntendedStoneAfterWindow(s, next + HourMs, n - 2);
      assert StoneCountIntended(s, next, n - 1) == 1;
    } else {
      assert next + (n - 2) * HourMs == t0 + (n - 1) * HourMs;
      IntendedStoneSentOnce(s, next, n - 1);
    }
  }

  /** The corrected notice is sent only for a dead pet (up to the 24-hour
      instant that health still counts as alive). */
  lemma IntendedStoneMeansDead(s: Streak, now: Millis)
    requires StoneIntended(s, now)
    ensures Health.HealthOf(s, now) == 0
            || now - s.lastActivity1 == StoneFromMs || now - s.lastActivity2 == StoneFromMs
  {
    assert now - s.lastActivity1 >= StoneFromMs && now - s.lastActivity2 >= StoneFromMs;
  }
}
